=== FILE: README.md ===
# IliadSocialSpark session model

A Dafny model of the client-side session behind IliadSocialSpark, a
social-media planning app. A signed-in team member fills in tool forms. Each
form calls a server action that wraps an AI flow, and keeps the result in
its own panel. Separately, a session provider holds one shared session
record. Its generation entry points write results into that record, though
none of the modelled components calls them. The record can be saved to and
loaded from a document store as a named client journey.

The model covers these parts:

- **Session record** (`State`): eleven fields, with nullable artifact slots and an error log. `UnchangedExcept` states "only these fields change" once for the whole project.
- **Session provider** (`Provider`):
  - `updateState` is a shallow merge. `StatePatch` models `Partial<SharedState>`, using `Option<Option<T>>` for nullable fields.
  - `addError` and `clearErrors`.
  - `handleAction`: a truthy error is logged and checked before the data; truthy data is applied.
  - The six generation entry points and autofill.
  - Save-current, save-as-new and load-full-journey.
- **Server actions** (`Actions`):
  - Every action resolves to `{data}` or `{error}`, never to a throw.
  - A thrown `Error` contributes its message; anything else thrown yields a fixed message.
- **Journey store** (`Firestore`):
  - The store is a map from id to document.
  - A save with a truthy id updates that document; a save without one creates a document under a fresh id. Updating a missing document fails.
  - Reading a missing id gives null.
  - The listing is ordered newest first.
  - An uninitialised database throws its own message before anything else.
  - A failure reported by the database client is rethrown with a descriptive prefix.
- **Forms** (`Forms`, `ResultPanel` and one module per tool):
  - The zod schemas become functions returning the list of issues, with the schema's messages.
  - Each form's submit handler:
    - skips the server when validation fails;
    - clears the result panel;
    - stores the data unless the error is truthy.
  - `ResultPanel.HandleSubmit` states that shape once. The audience-insights, strategy, viral-hooks and trend-tracker forms send their form values as the request, so their `Submit` members are thin wrappers around it. The content-crafter and calendar forms build a request, and state what it carries.
- **Dialogs** (`SaveJourneyDialog`, `LoadJourneyDialog`):
  - The save dialog's blank-name guard works through `trim`. A name that passes the guard is saved exactly as typed, spaces included.
  - The load dialog's selection guard works through JavaScript truthiness.
  - The load dialog looks the selection up with `find`, which returns the first match.
- **Access gating** (`Auth`):
  - The domain allow-list.
  - The state kept after each sign-in change.
  - The redirect rule.
  - Which of loader, access-denied screen or page is rendered.
- **Whole-journey properties** (`Journeys`):
  - A successful save loads back to the saved session.
  - "Save as new" never touches the current document.
  - "The current journey is stored" is kept by every save.

JavaScript truthiness is modelled explicitly (`Js.Truthy`, `Js.TruthyOpt`). In
particular, a reply whose `error` is the empty string and that carries no data
is neither a failure nor a success; with data it is a success. `Actions.WrapReading` and `Provider.HandleWrapped` pin down that edge.

The store's database client, its clock and its id generator are parameters:
- `db` is the store, or `Uninitialised` when the admin client failed to start.
- `fault` is a failure message reported by the client library.
- `at` is the save time.
- `newId` is the id the store would assign, constrained by `Firestore.FreshFor`.
- `now` is the timestamp of a logged error.

AI flows are parameters too: a `backend` function or a ready-made `Reply`.

## Model

| member | source | states |
|---|---|---|
| Js.TrimStart | src/components/features/save-journey-dialog.tsx:37 | the result is a suffix of the input, all dropped characters are whitespace and the first kept one is not |
| Js.TrimEnd | src/components/features/save-journey-dialog.tsx:37 | the result is a prefix of the input, all dropped characters are whitespace and the last kept one is not |
| Js.TrimEmptyIffBlank | src/components/features/save-journey-dialog.tsx:37 | `trim()` yields the empty string exactly when every character is ECMAScript whitespace |
| Js.EndsWithIffSplit | src/context/auth-context.tsx:72 | `endsWith(suffix)` holds exactly when the string is some prefix followed by the suffix |
| State.UnchangedNothingIsEqual | src/app/state.ts:18-30 | two sessions that agree on every one of the eleven fields are the same session |
| CaptionsSchema.ParseCount | src/ai/flows/generate-content-captions.ts:20 | the caption count is accepted iff it is absent or an integer in 1..5; absent gives 3; an accepted value is kept |
| CaptionsSchema.ParseStrategy | src/ai/flows/generate-content-captions.ts:21-28 | the optional strategy parses iff the platform strategy and all three tactics are present, and parsing loses nothing |
| CaptionsSchema.Parse | src/ai/flows/generate-content-captions.ts:14-29 | a request parses iff platform and format are in their enums and count and strategy parse; the result is valid, an omitted count becomes 3, and every other field (description, platform, format, topic, keywords, strategy) is carried through unchanged |
| CaptionsSchema.ParseUnparse | src/ai/flows/generate-content-captions.ts:14-29 | every valid typed request survives serialising and parsing unchanged |
| CaptionsSchema.UnparseParse | src/ai/flows/generate-content-captions.ts:14-29 | a raw request that parses and states its count is exactly the serialised form of its parse |
| AutofillSchema.ParseSource | src/ai/schemas/autofill-schemas.ts:3-14 | a source parses iff it is tagged `pdf`, or tagged `url` with a URL; parsing loses nothing |
| AutofillSchema.ParseContentSource | src/ai/schemas/autofill-schemas.ts:18-29 | a content source parses iff it is tagged `pdf` or `text`; parsing loses nothing |
| AutofillSchema.SourceRoundTrip | src/ai/schemas/autofill-schemas.ts:3-14 | every well-formed source is recovered from its raw form |
| AutofillSchema.ContentSourceRoundTrip | src/ai/schemas/autofill-schemas.ts:18-29 | every content source is recovered from its raw form |
| AutofillSchema.ParseOutput | src/ai/schemas/autofill-schemas.ts:33-36 | the autofill output parses iff both strings are present, and keeps them |
| Firestore.Stringify | src/app/firestore-actions.ts:30 | parsing the stored JSON gives back the saved session |
| Firestore.SaveJourney | src/app/firestore-actions.ts:22-55 | uninitialised throws before anything; a client failure is rethrown with the save prefix and leaves the store alone; a truthy id updates that existing document, a missing one fails; no id creates under a fresh id; success iff not (truthy id and missing document) |
| Firestore.GetJourney | src/app/firestore-actions.ts:80-96 | uninitialised and client failures throw their messages; a missing id is null; otherwise the stored session |
| Firestore.InsertByRecency | src/app/firestore-actions.ts:62 | inserting into a newest-first list keeps it newest first and adds exactly that entry |
| Firestore.EntriesAddOne | src/app/firestore-actions.ts:66-73 | adding one document's id adds exactly its listing entry, which was not there before |
| Firestore.GetJourneys | src/app/firestore-actions.ts:57-78 | the listing is newest first and is a permutation of one entry per stored document (id, name, save time); empty store gives `[]`; failures throw their messages |
| Firestore.ListedEntryIsStored | src/app/firestore-actions.ts:66-73 | every listed entry is the entry of the stored document with that id |
| Actions.HandleError | src/app/actions.ts:14-18 | an `Error` gives `{error: message}`; anything else gives the fixed unknown-error message; never data |
| Actions.Wrap | src/app/actions.ts:20-27 | exactly one of `data` and `error` is present; data iff the call returned, holding its value; otherwise the thrown value's message |
| Actions.WrapReading | src/app/actions.ts:20-27 | a wrapped reply reads as success iff the call returned, as failure iff it threw a non-empty message, and as neither only for an `Error` with an empty message |
| Actions.LoadJourney | src/app/actions.ts:92-99 | a missing id is `{data: null}` rather than an error; a stored one is its session; store failures become `{error}` |
| Actions.GetJourneys | src/app/actions.ts:83-90 | exactly one key; a healthy store always gives data, `[]` when empty; on data, the listing is newest first and covers every stored document; store failures become `{error}` |
| Actions.SaveJourney | src/app/actions.ts:101-108 | `{data: {id}}` with the id the store saved under, or `{error}` with the store's message; the store is the store's result |
| Actions.SaveFailureIsReported | src/app/actions.ts:101-108 | every save reply reads as success or as failure, never as neither, because every store failure message is non-empty |
| Provider.InitialStateIsBlank | src/context/app-provider.tsx:26-38 | the initial session has empty text fields, no artifacts, no errors and no journey |
| Provider.UpdateState | src/context/app-provider.tsx:44-46 | every field the patch carries takes the patch's value; every other field is unchanged |
| Provider.UpdateEmptyIsIdentity | src/context/app-provider.tsx:44-46 | an empty patch changes nothing |
| Provider.UpdatesCompose | src/context/app-provider.tsx:44-46 | two updates equal one update with the later patch winning per field; repeating an update changes nothing more |
| Provider.AddError | src/context/app-provider.tsx:48-57 | the log keeps its earlier entries and gains exactly one entry at the end with the message and time; nothing else changes |
| Provider.ClearErrors | src/context/app-provider.tsx:65-67 | the log becomes empty and nothing else changes |
| Provider.ClearAfterAdd | src/context/app-provider.tsx:48-67 | clearing after adding an error equals clearing alone |
| Provider.HandleAction | src/context/app-provider.tsx:69-80 | a truthy error is logged and nothing is returned; otherwise truthy data is applied through the callback and returned; a reply with neither leaves the session alone |
| Provider.ErrorWinsOverData | src/context/app-provider.tsx:71-74 | a reply carrying both data and a non-empty error is handled as a failure |
| Provider.HandleWrapped | src/context/app-provider.tsx:69-80 | for a wrapped action: a returned value is applied, a thrown non-empty message is logged, and a thrown empty message changes nothing |
| Provider.GenerateAudienceInsights | src/context/app-provider.tsx:82-90 | on success the brand details and demographic become the submitted ones and the report the result; only those fields or the log change |
| Provider.GenerateStrategy | src/context/app-provider.tsx:103-107 | on success the strategy slot holds the result; only it or the log change |
| Provider.GenerateTrends | src/context/app-provider.tsx:109-113 | on success the trends slot holds the result; only it or the log change |
| Provider.GenerateViralHooks | src/context/app-provider.tsx:115-119 | on success the hooks slot holds the result; only it or the log change |
| Provider.GenerateContentCaptions | src/context/app-provider.tsx:121-125 | on success the captions slot holds the result; only it or the log change |
| Provider.GenerateContentCalendar | src/context/app-provider.tsx:127-131 | on success the calendar slot holds the result; only it or the log change |
| Provider.FailureKeepsSlots | src/context/app-provider.tsx:69-131 | a generation that does not succeed changes no slot; the log is unchanged or gains exactly the reply's error |
| Provider.AutofillAudienceDetails | src/context/app-provider.tsx:92-101 | on success the brand details and demographic come from the result and the report is cleared; the pair is returned iff successful and equals the new fields |
| Provider.FinishSave | src/context/app-provider.tsx:133-157 | resolves true iff the reply succeeded; success sets the current journey to the saved id and name only; failure logs the error; a reply with neither data nor a truthy error changes nothing |
| Provider.SaveCurrentJourney | src/context/app-provider.tsx:133-144 | the session is saved under the current journey's id when it is truthy and under a new id otherwise (also for an empty id); on success the stored document holds the session, and only the current journey changes, to that id with the given name; with a healthy store it fails exactly when the truthy id has no document; on failure the store and journey are kept and the store's message (uninitialised, client failure or missing document) is logged |
| Provider.SaveAsNewJourney | src/context/app-provider.tsx:146-157 | the session is stored under a new id; on success the store gained exactly that document holding the session, and only the current journey changes, to the new id with the name; with a healthy store and no client failure it succeeds; on failure the store and journey are kept and the store's message is logged |
| Provider.LoadFullJourney | src/context/app-provider.tsx:159-161 | every field comes from the loaded session, except that the journey is the one loaded and the log is empty |
| Provider.LoadIgnoresPrevious | src/context/app-provider.tsx:159-161 | the session before a load has no influence on the session after it |
| Journeys.SaveCurrentKeepsStored | src/context/app-provider.tsx:133-144 | when the current journey is stored, a save without a client failure succeeds, and the current journey is stored afterwards either way |
| Journeys.SaveAsNewKeepsOld | src/context/app-provider.tsx:146-157 | "save as new" succeeds iff the client does not fail, keeps the current journey stored, leaves the old document untouched, and on success moves to a different id |
| Journeys.SaveThenLoad | src/app/firestore-actions.ts:22-96 | after a successful save, loading the new current id returns the saved session, loading it into any session gives the post-save session with an empty log, and the listing shows it with the save's name and time |
| Journeys.UpdateInPlace | src/app/firestore-actions.ts:38-43 | updating a stored current journey keeps the set of documents and every other document |
| Forms.MinLength | src/components/features/strategy-alchemist.tsx:27-30 | `min(n)` reports its message at the field's path iff the value is shorter than n |
| Forms.MaxLength | src/components/features/audience-insights.tsx:28 | `max(n)` reports its message at the field's path iff the value is longer than n |
| Forms.MinLengthOf | src/components/features/content-crafter.tsx:32 | an undefined string field is reported as `Required`; a defined one shorter than n gets exactly the field's own message; otherwise there is no issue |
| Forms.OneOf | src/components/features/content-crafter.tsx:33-34 | `enum(options)` reports one issue at the field's path iff the value is not an option |
| ResultPanel.Start | src/components/features/audience-insights.tsx:48-49 | submitting clears the result and marks the panel pending |
| ResultPanel.Settle | src/components/features/audience-insights.tsx:50-59 | a truthy error leaves the result as it is; otherwise the result becomes the reply's data; pending ends |
| ResultPanel.Submit | src/components/features/audience-insights.tsx:47-61 | after a submission a result is shown iff the reply succeeded, and it is the reply's data |
| ResultPanel.HandleSubmit | src/components/features/audience-insights.tsx:47-61 | invalid values leave the panel alone and never reach the backend; for valid ones, pending ends and a result is shown iff the reply succeeded, namely the reply's data |
| ResultPanel.FailureDiscardsEarlierResult | src/components/features/audience-insights.tsx:47-61 | a failed submission hides an earlier result |
| AudienceInsights.Validate | src/components/features/audience-insights.tsx:25-32 | valid iff both fields have 10 to 500 characters; issues name only those fields |
| AudienceInsights.DefaultRejected | src/components/features/audience-insights.tsx:41-44 | the empty defaults give two issues |
| StrategyAlchemist.Validate | src/components/features/strategy-alchemist.tsx:26-31 | valid iff name ≥ 2, description ≥ 10, audience ≥ 10 and goals ≥ 5 characters; at most four issues |
| StrategyAlchemist.DefaultRejected | src/components/features/strategy-alchemist.tsx:40-45 | the empty defaults give four issues |
| ViralHookGenerator.Validate | src/components/features/viral-hook-generator.tsx:25-28 | valid iff niche ≥ 3 and audience psychology ≥ 10 characters; at most two issues |
| ViralHookGenerator.DefaultRejected | src/components/features/viral-hook-generator.tsx:37-40 | the empty defaults give two issues |
| TrendTracker.EnumIssues | src/components/features/trend-tracker.tsx:31 | no issue iff every selected platform is one of the five |
| TrendTracker.PlatformIssues | src/components/features/trend-tracker.tsx:31-33 | the platform list is accepted iff every entry is a known platform and at least one is selected |
| TrendTracker.Validate | src/components/features/trend-tracker.tsx:29-34 | valid iff niche ≥ 3 characters and the platform list is accepted |
| TrendTracker.DefaultRejectedOnNicheOnly | src/components/features/trend-tracker.tsx:43-46 | the defaults fail only on the empty niche, with its message |
| TrendTracker.Without | src/components/features/trend-tracker.tsx:94 | filtering out a platform keeps exactly the other entries |
| TrendTracker.Toggle | src/components/features/trend-tracker.tsx:91-95 | checking appends the platform; unchecking removes every copy of it and keeps the rest |
| TrendTracker.WithoutDistributes | src/components/features/trend-tracker.tsx:94 | filtering distributes over concatenation |
| TrendTracker.WithoutAbsent | src/components/features/trend-tracker.tsx:94 | filtering out an absent platform changes nothing |
| TrendTracker.CheckThenUncheck | src/components/features/trend-tracker.tsx:91-95 | checking then unchecking an unselected platform restores the list |
| ContentCrafter.Defaults | src/components/features/content-crafter.tsx:50-56 | the description is the prop when there is one and `''` when there is none; platform Instagram, format Post, empty topic and keywords |
| ContentCrafter.SyncProp | src/components/features/content-crafter.tsx:59-61 | the effect replaces the description with the prop and keeps everything else |
| ContentCrafter.MountedWithoutProp | src/app/page.tsx:76 | rendered without the prop, the mounted form's description is undefined, not `''`, and its first issue is `Required` |
| ContentCrafter.Validate | src/components/features/content-crafter.tsx:31-37 | valid iff the description is defined with ≥ 10 characters, platform and format are in their enums, topic and keywords have ≥ 3 characters |
| ContentCrafter.Request | src/components/features/content-crafter.tsx:66 | the request carries the form's description (`''` if undefined), platform, format, topic and keywords unchanged, a caption count of 3, and no strategy |
| ContentCrafter.ValidFormMakesValidRequest | src/components/features/content-crafter.tsx:66 | a valid form always yields a request the captions flow accepts, asking for 3 captions |
| ContentCrafter.DefaultsNeedTopicAndKeywords | src/components/features/content-crafter.tsx:50-56 | with a long enough description prop the defaults fail only on topic and keywords |
| ContentCrafter.Submit | src/components/features/content-crafter.tsx:63-73 | invalid values leave the panel; valid ones show a result iff the action succeeded on the built request |
| CalendarCreator.Defaults | src/components/features/calendar-creator.tsx:43-47 | description and audience are the props when given and `''` when not; goals are empty |
| CalendarCreator.SyncProps | src/components/features/calendar-creator.tsx:50-53 | the effect replaces description and audience with the props and keeps the goals |
| CalendarCreator.MountedWithoutProps | src/app/page.tsx:79 | rendered without props, the mounted form's description and audience are undefined, and both are reported as `Required` first |
| CalendarCreator.Validate | src/components/features/calendar-creator.tsx:25-29 | valid iff description and audience are defined with ≥ 10 characters and goals have ≥ 5 |
| CalendarCreator.DefaultsRejected | src/components/features/calendar-creator.tsx:43-47 | the defaults always report the missing goals |
| CalendarCreator.Submit | src/components/features/calendar-creator.tsx:56-66 | invalid values leave the panel; valid ones send the three values and show a result iff the action succeeded |
| SaveJourneyDialog.Prefill | src/components/features/save-journey-dialog.tsx:30-34 | opening fills the name from the current journey, or empties it; a closed dialog is left alone |
| SaveJourneyDialog.Buttons | src/components/features/save-journey-dialog.tsx:86-102 | "Update Current" and "Save as New" are offered iff there is a current journey; "Save" iff there is none |
| SaveJourneyDialog.AfterAttempt | src/components/features/save-journey-dialog.tsx:41-47 | saving ends and the dialog closes iff the save resolved true |
| SaveJourneyDialog.HandleSave | src/components/features/save-journey-dialog.tsx:36-48 | a blank name changes nothing and saves nothing; otherwise the current journey is saved under the untrimmed name and the dialog closes iff it succeeded |
| SaveJourneyDialog.HandleSaveAsNew | src/components/features/save-journey-dialog.tsx:50-62 | a blank name changes nothing and saves nothing; otherwise a new journey is saved under the untrimmed name and the dialog closes iff it succeeded |
| SaveJourneyDialog.NameKeptUntrimmed | src/components/features/save-journey-dialog.tsx:36-48 | a name with surrounding spaces is stored and adopted exactly as typed |
| LoadJourneyDialog.Fetched | src/components/features/load-journey-dialog.tsx:38-50 | loading ends; a truthy error keeps the old list; otherwise present data replaces it, and a reply with neither keeps the list; nothing else changes |
| LoadJourneyDialog.FirstIndex | src/components/features/load-journey-dialog.tsx:59 | the index of the first listed entry with the id, or none iff no entry has it |
| LoadJourneyDialog.Find | src/components/features/load-journey-dialog.tsx:59 | the first listed entry with the id, or none iff no entry has it |
| LoadJourneyDialog.HandleLoad | src/components/features/load-journey-dialog.tsx:52-68 | no truthy selection changes nothing; otherwise loading ends and the selection clears; a journey is handed over only when the action returned a session and the selection is listed, under the listed id and name; the dialog closes iff one is handed over |
| LoadJourneyDialog.LoadsListedStoredJourney | src/components/features/load-journey-dialog.tsx:52-68 | with a healthy store, a listed and stored selection is loaded with the stored session |
| Auth.AuthorizedIffDomain | src/context/auth-context.tsx:71-72 | a user is authorised iff the email is some local part followed by one of the two domains; no email is never authorised |
| Auth.OnAuthStateChanged | src/context/auth-context.tsx:69-86 | loading ends; no user clears user and membership; otherwise membership is the authorisation and the user is kept iff authorised |
| Auth.ChangeSettles | src/context/auth-context.tsx:69-86 | after any sign-in change a user is kept exactly when membership is true |
| Auth.Redirects | src/context/auth-context.tsx:91-105 | nothing while loading; at most one push, and only to `/login` or `/`; `/login` iff signed out on a private route; `/` iff signed in on the login page |
| Auth.Render | src/context/auth-context.tsx:133-156 | loading shows the loader; otherwise false membership shows access denied; otherwise the page is shown exactly on a public route or to a member, and the loader elsewhere |
| Auth.PrivatePagesNeedMembership | src/context/auth-context.tsx:69-156 | after a sign-in change, a private page is shown iff the user is authorised; signed out means loader plus redirect to `/login`; unauthorised means access denied |
| Auth.SignIn | src/context/auth-context.tsx:107-118 | loading while the popup is open; a popup failure ends loading and is rethrown; user and membership are untouched |
| Auth.SignOut | src/context/auth-context.tsx:120-129 | loading while signing out; a failure ends loading and is swallowed; user and membership are untouched |

## Left out

- The AI flows and their prompts (`src/ai/flows/*`) are not modelled as computations. Each action's flow is a parameter: an `Attempt` or a `backend` function. Only the input and output shapes are kept (`Artifacts`, where `z.number()` becomes `real`), plus the captions input schema, whose defaults and bounds matter to the caller.
- The source has no step that turns an autofill `url` source into text: the autofill prompt takes the source schema and passes the URL to the model as it is. The content-source schema is declared but never used, and is modelled only as a schema. URL validity is the parameter `isUrl`.
- `translateText`, the translate button, the clipboard button, the error-log dialog, the header, toasts, console logging and all rendering markup are left out. They do not affect the session or the store.
- React scheduling is not modelled: transitions, overlapping updates and stale closures. Each operation is one atomic step from a given session. As a consequence, what two concurrent submissions would do is not modelled.
- Save times are integers rather than timestamps, and the listing's ISO-8601 conversion is dropped. The order between two documents saved at the same instant is left unspecified. The store breaks such ties by document id, which the model does not state.
- JSON serialisation of the session is taken as an exact round trip (`Firestore.Stringify`). Values JSON cannot represent do not occur in the session.
- Firestore.SaveJourney: the wording of client-library errors is a parameter (`fault`). Updating a missing document uses a fixed message (`NoDocumentToUpdate`) in place of the library's own.
- Firestore.GetJourneys: the listing is stated as newest first and as a permutation of the stored entries, not as one particular order among equal save times.
- Forms.MinLength and Forms.MaxLength: string lengths count Dafny characters, while zod counts UTF-16 code units. The two differ only for characters outside the Basic Multilingual Plane.
- Forms.OneOf: the issue message for a bad enum value follows zod's wording. Issue paths are plain field names, not zod's path arrays.
- The trend tracker sends `{niche, platforms}`, while the trending-topics flow declares a required `industry` and no `niche` (src/ai/flows/identify-trending-topics.ts:14-20). The two sides are not reconciled: `TrendTracker.Submit` passes the form values to a `backend` parameter and makes no claim about what the flow does with them.
- No component renders the save or load dialog or passes the load dialog's `onLoad`, so nothing connects it to `loadFullJourney`; the model does not invent that wiring. `LoadJourneyDialog.HandleLoad` returns the journey and session it would hand over, and `Provider.LoadFullJourney` models what the provider then does with them.
- Sign-in and sign-out popups, the identity provider and the router are inputs. Their effects are the `Option<User>` and exception parameters of `Auth`.
- A reply whose error is the empty string and that carries no data is neither logged nor applied, because the source tests the error for truthiness. This is modelled as written, without a corrected variant. An `Error` with an empty message can in principle be thrown, but nothing in the code shows whether the authors meant to handle it.

=== FILE: actions.dfy ===
/** The server actions: each wraps one call (a generation flow or a store
    operation) so that it never throws. A success becomes `{data}`, a thrown
    value becomes `{error}` carrying the `Error`'s message, or a fixed
    message for anything that is not an `Error`. */
module Actions {
  import opened Js
  import opened State
  import Firestore

  /** The object an action resolves to: `{data}` or `{error}`. Both keys are
      modelled so that a caller's reading of them can be stated. */
  datatype Reply<+T> = Reply(data: Option<T>, error: Option<string>)

  /** Exactly one of the two keys is present. */
  predicate ExactlyOne<T>(r: Reply<T>) {
    r.data.Some? != r.error.Some?
  }

  /** How the session and the forms read a reply: an error counts only when
      it is truthy, and it is checked before the data. */
  predicate Failed<T>(r: Reply<T>) {
    TruthyOpt(r.error)
  }

  predicate Succeeded<T>(r: Reply<T>) {
    !Failed(r) && r.data.Some?
  }

  const UnknownError := "An unknown error occurred."

  /** The message reported for a thrown value. */
  function MessageOf(e: Exception): string {
    match e
    case ErrorObject(m) => m
    case OtherThrown => UnknownError
  }

  function HandleError<T>(e: Exception): (r: Reply<T>)
    ensures r.data.None? && r.error.Some?
    ensures e.ErrorObject? ==> r.error.value == e.message
    ensures e.OtherThrown? ==> r.error.value == UnknownError
  {
    Reply(None, Some(MessageOf(e)))
  }

  /** The shape shared by every action: await the call, wrap the outcome. */
  function Wrap<T>(a: Attempt<T>): (r: Reply<T>)
    ensures ExactlyOne(r)
    ensures a.Returned? <==> r.data.Some?
    ensures a.Returned? ==> r.data.value == a.value
    ensures a.Threw? ==> r.error == Some(MessageOf(a.exception))
  {
    match a
    case Returned(v) => Reply(Some(v), None)
    case Threw(e) => HandleError(e)
  }

  /** A wrapped outcome is read as a success exactly when the call returned,
      and as a failure exactly when it threw something with a non-empty
      message; a thrown `Error` with an empty message is neither. */
  lemma WrapReading<T>(a: Attempt<T>)
    ensures Succeeded(Wrap(a)) <==> a.Returned?
    ensures Failed(Wrap(a)) <==> (a.Threw? && MessageOf(a.exception) != "")
    ensures !Succeeded(Wrap(a)) && !Failed(Wrap(a)) <==> a == Threw(ErrorObject(""))
  {
  }

  /** `loadJourney`: a missing id is `{data: null}`, not an error. */
  function LoadJourney(db: Firestore.Db, id: string, fault: Option<string>): (r: Reply<Option<SharedState>>)
    ensures ExactlyOne(r)
    ensures db.Ready? && fault.None? && id !in db.docs ==> r == Reply(Some(None), None)
    ensures db.Ready? && fault.None? && id in db.docs ==>
              r == Reply(Some(Some(Firestore.Parse(db.docs[id].journeyData))), None)
    ensures db.Uninitialised? ==> r == Reply(None, Some(Firestore.NotInitialised))
    ensures db.Ready? && fault.Some? ==> r == Reply(None, Some(Firestore.GetFailed + fault.value))
  {
    Wrap(Firestore.GetJourney(db, id, fault))
  }

  /** `getJourneys`: the listing, or the store's failure message. */
  method GetJourneys(db: Firestore.Db, fault: Option<string>) returns (r: Reply<seq<Firestore.ListItem>>)
    ensures ExactlyOne(r)
    ensures db.Uninitialised? ==> r == Reply(None, Some(Firestore.NotInitialised))
    ensures db.Ready? && fault.Some? ==> r == Reply(None, Some(Firestore.ListFailed + fault.value))
    ensures db.Ready? && fault.None? ==> r.data.Some? && r.error.None?
    ensures db.Ready? && fault.None? && db.docs == map[] ==> r.data == Some([])
    ensures r.data.Some? ==> (&& db.Ready?
                              && Firestore.NewestFirst(r.data.value)
                              && multiset(r.data.value) == multiset(Firestore.Entries(db.docs, db.docs.Keys)))
  {
    var listed := Firestore.GetJourneys(db, fault);
    r := Wrap(listed);
  }

  /** The `{id}` a successful save answers with. */
  datatype SaveAck = SaveAck(id: string)

  datatype SaveReply = SaveReply(reply: Reply<SaveAck>, db: Firestore.Db)

  /** `saveJourney`: `{data: {id}}` with the id the store saved under. */
  function SaveJourney(db: Firestore.Db, state: SharedState, name: string, id: Option<string>,
                       at: int, newId: string, fault: Option<string>): (r: SaveReply)
    requires Firestore.FreshFor(db, newId)
    ensures ExactlyOne(r.reply)
    ensures var s := Firestore.SaveJourney(db, state, name, id, at, newId, fault);
            && r.db == s.db
            && (s.outcome.Returned? ==> r.reply == Reply(Some(SaveAck(s.outcome.value)), None))
            && (s.outcome.Threw? ==> r.reply == Reply(None, Some(s.outcome.exception.message)))
  {
    var s := Firestore.SaveJourney(db, state, name, id, at, newId, fault);
    var reply := Wrap(s.outcome);
    SaveReply(match reply.data case Some(k) => Reply(Some(SaveAck(k)), None) case None => Reply(None, reply.error), s.db)
  }

  /** Every failure of the store reaches the caller as a non-empty message,
      so a failed save is never mistaken for a silent one. */
  lemma SaveFailureIsReported(db: Firestore.Db, state: SharedState, name: string, id: Option<string>,
                              at: int, newId: string, fault: Option<string>)
    requires Firestore.FreshFor(db, newId)
    ensures var r := SaveJourney(db, state, name, id, at, newId, fault);
            Succeeded(r.reply) || Failed(r.reply)
  {
    var s := Firestore.SaveJourney(db, state, name, id, at, newId, fault);
    if s.outcome.Threw? {
      var m := s.outcome.exception.message;
      assert m == Firestore.NotInitialised || m[..|Firestore.SaveFailed|] == Firestore.SaveFailed;
    }
  }
}

=== FILE: artifacts.dfy ===
/** The request and result records of the generation flows whose results
    the session keeps: audience insights, strategy, trends, hooks and the
    calendar. The flows themselves are external calls; only the shapes of
    what goes in and comes out are modelled here. */
module Artifacts {

  datatype AudienceInsightsInput = AudienceInsightsInput(brandDetails: string, targetDemographic: string)

  datatype AudienceInsightsOutput = AudienceInsightsOutput(audienceAnalysisReport: string)

  datatype StrategyInput = StrategyInput(brandName: string, brandDescription: string, targetAudience: string, goals: string)

  /** The strategy and tactics produced for one platform. */
  datatype PlatformPlan = PlatformPlan(strategy: string, postingTimes: string, hashtagStrategy: string, growthHacks: string)

  datatype StrategyOutput = StrategyOutput(instagram: PlatformPlan, tiktok: PlatformPlan, linkedin: PlatformPlan, x: PlatformPlan)

  datatype Trend = Trend(topic: string, description: string, contentIdea: string)

  datatype TrendsOutput = TrendsOutput(x: seq<Trend>, facebook: seq<Trend>, instagram: seq<Trend>, linkedin: seq<Trend>, tiktok: seq<Trend>)

  datatype HooksInput = HooksInput(niche: string, audiencePsychology: string)

  datatype HooksOutput = HooksOutput(viralHooks: seq<string>)

  datatype CalendarInput = CalendarInput(brandDescription: string, targetAudience: string, goals: string)

  datatype PostType = Value | Authority | Engagement | CallToAction

  /** `day` is `z.number()`: any JSON number; the 1-30 range is only asked
      for in the prompt, not checked. */
  datatype CalendarEntry = CalendarEntry(day: real, postType: PostType, topic: string, caption: string)

  datatype CalendarOutput = CalendarOutput(calendar: seq<CalendarEntry>)
}

=== FILE: audience_insights.dfy ===
/** The audience-insights form: two text fields of 10 to 500 characters,
    both empty by default, and a result panel fed by the insights action. */
module AudienceInsights {
  import opened Js
  import opened Forms
  import opened ResultPanel
  import opened Artifacts
  import opened Actions

  const MinChars := 10
  const MaxChars := 500

  const DefaultValues := AudienceInsightsInput("", "")

  function Validate(v: AudienceInsightsInput): (r: seq<Issue>)
    ensures r == [] <==> (&& MinChars <= |v.brandDetails| <= MaxChars
                          && MinChars <= |v.targetDemographic| <= MaxChars)
    ensures forall i :: 0 <= i < |r| ==> r[i].path in {"brandDetails", "targetDemographic"}
  {
    MinLength("brandDetails", v.brandDetails, MinChars, "Brand details must be at least 10 characters.")
    + MaxLength("brandDetails", v.brandDetails, MaxChars, "Brand details must be at most 500 characters.")
    + MinLength("targetDemographic", v.targetDemographic, MinChars, "Target demographic must be at least 10 characters.")
    + MaxLength("targetDemographic", v.targetDemographic, MaxChars, "Target demographic must be at most 500 characters.")
  }

  /** The form as first shown cannot be submitted. */
  lemma DefaultRejected()
    ensures |Validate(DefaultValues)| == 2
  {
  }

  /** `onSubmit`: the form values themselves are the request; see
      `ResultPanel.HandleSubmit` for what the panel shows afterwards. */
  function Submit(p: Panel<AudienceInsightsOutput>, v: AudienceInsightsInput,
                  backend: AudienceInsightsInput -> Reply<AudienceInsightsOutput>): (r: Panel<AudienceInsightsOutput>)
  {
    HandleSubmit(p, Validate(v), v, backend)
  }
}

=== FILE: auth.dfy ===
/** Access gating: who counts as a team member (an email in one of two
    domains), what the provider keeps after each sign-in change, where the
    router is sent, and which of the loader, the access-denied screen or the
    page is shown. Sign-in events from the identity provider are inputs. */
module Auth {
  import opened Js

  datatype User = User(email: Option<string>)

  datatype AuthState = AuthState(user: Option<User>, loading: bool, isTeamMember: Option<bool>)

  const Initial := AuthState(None, true, None)

  const Domains: seq<string> := ["@iliadmg.com", "@radiorancho.com"]

  const LoginRoute := "/login"
  const HomeRoute := "/"
  const PublicRoutes: seq<string> := ["/login", "/terms", "/privacy"]

  /** `user.email || ''`. */
  function EmailOf(u: User): string {
    Or(u.email, "")
  }

  predicate IsAuthorized(u: User) {
    EndsWith(EmailOf(u), Domains[0]) || EndsWith(EmailOf(u), Domains[1])
  }

  /** An email is accepted exactly when it is some local part followed by
      one of the two domains; a user without an email never is. */
  lemma AuthorizedIffDomain(u: User)
    ensures IsAuthorized(u) <==> exists p, d :: d in Domains && EmailOf(u) == p + d
    ensures u.email.None? ==> !IsAuthorized(u)
  {
    EndsWithIffSplit(EmailOf(u), Domains[0]);
    EndsWithIffSplit(EmailOf(u), Domains[1]);
    if exists p, d :: d in Domains && EmailOf(u) == p + d {
      var p, d :| d in Domains && EmailOf(u) == p + d;
      assert d == Domains[0] || d == Domains[1];
    }
  }

  /** The listener for sign-in changes. */
  function OnAuthStateChanged(s: AuthState, u: Option<User>): (r: AuthState)
    ensures !r.loading
    ensures u.None? ==> r.user.None? && r.isTeamMember.None?
    ensures u.Some? ==> r.isTeamMember == Some(IsAuthorized(u.value))
    ensures r.user.Some? <==> u.Some? && IsAuthorized(u.value)
    ensures r.user.Some? ==> r.user == u
  {
    match u
    case None => AuthState(None, false, None)
    case Some(user) =>
      if IsAuthorized(user) then AuthState(Some(user), false, Some(true))
      else AuthState(None, false, Some(false))
  }

  /** What the listener can leave behind: a user is kept exactly when they
      are a team member. */
  predicate Settled(s: AuthState) {
    !s.loading && (s.user.Some? <==> s.isTeamMember == Some(true))
  }

  lemma ChangeSettles(s: AuthState, u: Option<User>)
    ensures Settled(OnAuthStateChanged(s, u))
  {
  }

  predicate IsPublic(path: string) {
    path in PublicRoutes
  }

  /** The routes the redirect effect pushes, in order. */
  function Redirects(s: AuthState, path: string): (r: seq<string>)
    ensures s.loading ==> r == []
    ensures |r| <= 1
    ensures LoginRoute in r <==> !s.loading && s.user.None? && !IsPublic(path)
    ensures HomeRoute in r <==> !s.loading && s.user.Some? && path == LoginRoute
    ensures forall x :: x in r ==> x == LoginRoute || x == HomeRoute
  {
    if s.loading then []
    else
      (if s.user.None? && !IsPublic(path) then [LoginRoute] else [])
      + (if s.user.Some? && path == LoginRoute then [HomeRoute] else [])
  }

  datatype View = Loader | AccessDenied | Children

  /** What the provider renders. */
  function Render(s: AuthState, path: string): (r: View)
    ensures s.loading ==> r == Loader
    ensures !s.loading && s.isTeamMember == Some(false) ==> r == AccessDenied
    ensures r == Children ==> IsPublic(path) || (s.user.Some? && s.isTeamMember == Some(true))
    ensures r == AccessDenied ==> s.isTeamMember == Some(false)
    ensures (&& !s.loading && s.isTeamMember != Some(false)
             && (IsPublic(path) || (s.user.Some? && s.isTeamMember == Some(true)))) ==> r == Children
  {
    if s.loading then Loader
    else if s.isTeamMember == Some(false) then AccessDenied
    else if IsPublic(path) || (s.user.Some? && s.isTeamMember == Some(true)) then Children
    else Loader
  }

  /** After a sign-in change, a private page is shown exactly to team
      members; everyone else on it sees the loader (and is sent to the
      login page) or the access-denied screen. */
  lemma PrivatePagesNeedMembership(s: AuthState, u: Option<User>, path: string)
    requires !IsPublic(path)
    ensures var t := OnAuthStateChanged(s, u);
            && (Render(t, path) == Children <==> u.Some? && IsAuthorized(u.value))
            && (u.None? ==> Render(t, path) == Loader && Redirects(t, path) == [LoginRoute])
            && (u.Some? && !IsAuthorized(u.value) ==> Render(t, path) == AccessDenied)
  {
  }

  /** `signIn`: loading while the popup is open; when the popup fails,
      loading ends and the failure is rethrown. */
  datatype SignInResult = SignInResult(state: AuthState, rethrown: Option<Exception>)

  function SignIn(s: AuthState, popupFailure: Option<Exception>): (r: SignInResult)
    ensures popupFailure.Some? ==> !r.state.loading && r.rethrown == popupFailure
    ensures popupFailure.None? ==> r.state.loading && r.rethrown.None?
    ensures r.state.user == s.user && r.state.isTeamMember == s.isTeamMember
  {
    match popupFailure
    case Some(e) => SignInResult(s.(loading := false), Some(e))
    case None => SignInResult(s.(loading := true), None)
  }

  /** `signOutUser`: a failure ends loading and is swallowed. */
  function SignOut(s: AuthState, failure: Option<Exception>): (r: AuthState)
    ensures r.loading <==> failure.None?
    ensures r.user == s.user && r.isTeamMember == s.isTeamMember
  {
    s.(loading := failure.None?)
  }
}

=== FILE: autofill_schema.dfy ===
/** The schemas of the autofill flow. A request carries a tagged source:
    a PDF data URI or a website URL (the request schema), or a PDF data URI
    or plain text (the content schema, declared but not used by any flow).
    The result always carries both brand strings. */
module AutofillSchema {
  import opened Js

  const PdfTag := "pdf"
  const UrlTag := "url"
  const TextTag := "text"

  /** A source as it arrives: a `type` tag and a `data` string. */
  datatype RawSource = RawSource(tag: string, data: string)

  datatype Source = Pdf(data: string) | Url(data: string)

  datatype ContentSource = PdfContent(data: string) | Text(data: string)

  function ToRaw(s: Source): RawSource {
    match s
    case Pdf(d) => RawSource(PdfTag, d)
    case Url(d) => RawSource(UrlTag, d)
  }

  function ContentToRaw(s: ContentSource): RawSource {
    match s
    case PdfContent(d) => RawSource(PdfTag, d)
    case Text(d) => RawSource(TextTag, d)
  }

  /** Parses the request source. Whether a string is a well-formed URL is
      decided by `isUrl`, which stands for the URL parser of the runtime. */
  function ParseSource(raw: RawSource, isUrl: string -> bool): (r: Option<Source>)
    ensures r.Some? <==> (raw.tag == PdfTag || (raw.tag == UrlTag && isUrl(raw.data)))
    ensures r.Some? ==> ToRaw(r.value) == raw
    ensures r.Some? && r.value.Url? ==> isUrl(r.value.data)
  {
    if raw.tag == PdfTag then Some(Pdf(raw.data))
    else if raw.tag == UrlTag && isUrl(raw.data) then Some(Url(raw.data))
    else None
  }

  /** Parses the content source: a PDF or any text. */
  function ParseContentSource(raw: RawSource): (r: Option<ContentSource>)
    ensures r.Some? <==> raw.tag in {PdfTag, TextTag}
    ensures r.Some? ==> ContentToRaw(r.value) == raw
  {
    if raw.tag == PdfTag then Some(PdfContent(raw.data))
    else if raw.tag == TextTag then Some(Text(raw.data))
    else None
  }

  /** A source survives its raw form, provided a URL source holds a well-formed URL. */
  lemma SourceRoundTrip(s: Source, isUrl: string -> bool)
    requires s.Url? ==> isUrl(s.data)
    ensures ParseSource(ToRaw(s), isUrl) == Some(s)
  {
  }

  /** Any content source survives its raw form; text is never rejected. */
  lemma ContentSourceRoundTrip(s: ContentSource)
    ensures ParseContentSource(ContentToRaw(s)) == Some(s)
  {
  }

  datatype Output = Output(brandDetails: string, targetDemographic: string)

  /** The result object as it comes back: either field may be missing. */
  datatype RawOutput = RawOutput(brandDetails: Option<string>, targetDemographic: Option<string>)

  function ParseOutput(raw: RawOutput): (r: Option<Output>)
    ensures r.Some? <==> raw.brandDetails.Some? && raw.targetDemographic.Some?
    ensures r.Some? ==> r.value.brandDetails == raw.brandDetails.value
                        && r.value.targetDemographic == raw.targetDemographic.value
  {
    match raw
    case RawOutput(Some(b), Some(t)) => Some(Output(b, t))
    case _ => None
  }
}

=== FILE: calendar_creator.dfy ===
/** The calendar form: brand description and target audience of at least
    10 characters (taken from the page's props, and re-taken whenever
    either changes) and goals of at least 5. */
module CalendarCreator {
  import opened Js
  import opened Forms
  import opened ResultPanel
  import opened Actions
  import opened Artifacts

  /** The two brand fields are `undefined` when the page passes no props. */
  datatype FormValues = FormValues(brandDescription: Option<string>, targetAudience: Option<string>, goals: string)

  /** The initial values: each prop or `''`, and empty goals. */
  function Defaults(brand: Option<string>, audience: Option<string>): (r: FormValues)
    ensures r.brandDescription.Some? && r.targetAudience.Some? && r.goals == ""
    ensures brand.Some? ==> r.brandDescription == brand
    ensures audience.Some? ==> r.targetAudience == audience
    ensures brand.None? ==> r.brandDescription == Some("")
    ensures audience.None? ==> r.targetAudience == Some("")
  {
    FormValues(Some(Or(brand, "")), Some(Or(audience, "")), "")
  }

  /** The effect that copies both props into the form when either changes. */
  function SyncProps(v: FormValues, brand: Option<string>, audience: Option<string>): (r: FormValues)
    ensures r.brandDescription == brand && r.targetAudience == audience
    ensures r.goals == v.goals
  {
    v.(brandDescription := brand, targetAudience := audience)
  }

  function Validate(v: FormValues): (r: seq<Issue>)
    ensures r == [] <==> (&& v.brandDescription.Some? && |v.brandDescription.value| >= 10
                          && v.targetAudience.Some? && |v.targetAudience.value| >= 10
                          && |v.goals| >= 5)
  {
    MinLengthOf("brandDescription", v.brandDescription, 10, "Brand description must be at least 10 characters.")
    + MinLengthOf("targetAudience", v.targetAudience, 10, "Target audience must be at least 10 characters.")
    + MinLength("goals", v.goals, 5, "Goals are required.")
  }

  /** The form never opens ready to submit: goals start empty. */
  lemma DefaultsRejected(brand: Option<string>, audience: Option<string>)
    ensures Issue("goals", "Goals are required.") in Validate(Defaults(brand, audience))
  {
    var v := Defaults(brand, audience);
    var a := MinLengthOf("brandDescription", v.brandDescription, 10, "Brand description must be at least 10 characters.");
    var b := MinLengthOf("targetAudience", v.targetAudience, 10, "Target audience must be at least 10 characters.");
    assert Validate(v) == a + b + [Issue("goals", "Goals are required.")];
  }

  /** The effect also runs on mount, so a form rendered without props holds
      undefined description and audience rather than `''`, and both are
      reported as `Required`. */
  lemma MountedWithoutProps()
    ensures var v := SyncProps(Defaults(None, None), None, None);
            && v.brandDescription.None? && v.targetAudience.None?
            && Validate(v)[..2] == [Issue("brandDescription", Required), Issue("targetAudience", Required)]
  {
  }

  function Request(v: FormValues): CalendarInput {
    CalendarInput(Or(v.brandDescription, ""), Or(v.targetAudience, ""), v.goals)
  }

  function Submit(p: Panel<CalendarOutput>, v: FormValues,
                  backend: CalendarInput -> Reply<CalendarOutput>): (r: Panel<CalendarOutput>)
    ensures Validate(v) != [] ==> r == p
    ensures Validate(v) == [] ==> (r.result.Some? <==> Succeeded(backend(Request(v))))
    ensures Validate(v) == [] && Succeeded(backend(Request(v))) ==> r.result == backend(Request(v)).data
    ensures Validate(v) == [] ==> Request(v) == CalendarInput(v.brandDescription.value, v.targetAudience.value, v.goals)
  {
    HandleSubmit(p, Validate(v), Request(v), backend)
  }
}

=== FILE: captions_schema.dfy ===
/** The input and output schemas of the caption-generation flow: two
    five-value enums, an optional integer caption count in 1..5 that
    defaults to 3, and an optional nested strategy whose four strings are
    all required when it is given. Parsing a raw request either yields a
    typed request or rejects it. */
module CaptionsSchema {
  import opened Js

  const Platforms: seq<string> := ["Instagram", "TikTok", "LinkedIn", "X", "Facebook"]
  const Formats: seq<string> := ["Carousel", "Video", "Story", "Reel", "Post"]

  const MinCaptions: int := 1
  const MaxCaptions: int := 5
  const DefaultCaptions: int := 3

  /** The optional strategy block as it arrives: every field may be missing. */
  datatype RawTactics = RawTactics(postingTimes: Option<string>, hashtagStrategy: Option<string>, growthHacks: Option<string>)
  datatype RawStrategy = RawStrategy(platformStrategy: Option<string>, tactics: Option<RawTactics>)

  /** A request as it arrives; `numberOfCaptions` is a JavaScript number. */
  datatype RawRequest = RawRequest(
    brandDescription: string,
    platform: string,
    contentFormat: string,
    topic: string,
    keywords: string,
    numberOfCaptions: Option<real>,
    strategy: Option<RawStrategy>)

  datatype Tactics = Tactics(postingTimes: string, hashtagStrategy: string, growthHacks: string)
  datatype Strategy = Strategy(platformStrategy: string, tactics: Tactics)

  /** A request that passed the schema. */
  datatype Request = Request(
    brandDescription: string,
    platform: string,
    contentFormat: string,
    topic: string,
    keywords: string,
    numberOfCaptions: int,
    strategy: Option<Strategy>)

  datatype Output = Output(captions: seq<string>)

  predicate IsInteger(n: real) {
    n.Floor as real == n
  }

  /** What a typed request must satisfy to be one the schema produces. */
  predicate Valid(q: Request) {
    && q.platform in Platforms
    && q.contentFormat in Formats
    && MinCaptions <= q.numberOfCaptions <= MaxCaptions
  }

  /** A caption count the schema accepts; an omitted one is replaced by the default. */
  function ParseCount(n: Option<real>): (r: Option<int>)
    ensures r.Some? <==> (n.None? || (IsInteger(n.value) && MinCaptions as real <= n.value <= MaxCaptions as real))
    ensures n.None? ==> r == Some(DefaultCaptions)
    ensures r.Some? ==> MinCaptions <= r.value <= MaxCaptions
    ensures r.Some? && n.Some? ==> r.value as real == n.value
  {
    match n
    case None => Some(DefaultCaptions)
    case Some(v) => if IsInteger(v) && MinCaptions as real <= v <= MaxCaptions as real then Some(v.Floor) else None
  }

  /** The strategy block is accepted only when all four strings are present. */
  function ParseStrategy(raw: RawStrategy): (r: Option<Strategy>)
    ensures r.Some? <==> (raw.platformStrategy.Some? && raw.tactics.Some?
                          && raw.tactics.value.postingTimes.Some?
                          && raw.tactics.value.hashtagStrategy.Some?
                          && raw.tactics.value.growthHacks.Some?)
    ensures r.Some? ==> UnparseStrategy(r.value) == raw
  {
    match raw
    case RawStrategy(Some(ps), Some(RawTactics(Some(pt), Some(hs), Some(gh)))) =>
      Some(Strategy(ps, Tactics(pt, hs, gh)))
    case _ => None
  }

  function UnparseStrategy(s: Strategy): RawStrategy {
    RawStrategy(Some(s.platformStrategy),
                Some(RawTactics(Some(s.tactics.postingTimes), Some(s.tactics.hashtagStrategy), Some(s.tactics.growthHacks))))
  }

  /** Parses a raw request against the schema. */
  function Parse(raw: RawRequest): (r: Option<Request>)
    ensures r.Some? <==> (&& raw.platform in Platforms
                          && raw.contentFormat in Formats
                          && ParseCount(raw.numberOfCaptions).Some?
                          && (raw.strategy.Some? ==> ParseStrategy(raw.strategy.value).Some?))
    ensures r.Some? ==> Valid(r.value)
    ensures r.Some? && raw.numberOfCaptions.None? ==> r.value.numberOfCaptions == DefaultCaptions
    ensures r.Some? ==> (r.value.strategy.Some? <==> raw.strategy.Some?)
    ensures r.Some? ==> Unparse(r.value) == raw.(numberOfCaptions := Some(r.value.numberOfCaptions as real))
  {
    if raw.platform in Platforms && raw.contentFormat in Formats then
      match ParseCount(raw.numberOfCaptions)
      case None => None
      case Some(n) =>
        match raw.strategy
        case None =>
          Some(Request(raw.brandDescription, raw.platform, raw.contentFormat, raw.topic, raw.keywords, n, None))
        case Some(rs) =>
          match ParseStrategy(rs)
          case None => None
          case Some(st) =>
            Some(Request(raw.brandDescription, raw.platform, raw.contentFormat, raw.topic, raw.keywords, n, Some(st)))
    else None
  }

  /** The raw request that carries a typed request unchanged. */
  function Unparse(q: Request): RawRequest {
    RawRequest(q.brandDescription, q.platform, q.contentFormat, q.topic, q.keywords,
               Some(q.numberOfCaptions as real),
               match q.strategy case None => None case Some(s) => Some(UnparseStrategy(s)))
  }

  /** Every valid typed request survives a trip through its raw form. */
  lemma ParseUnparse(q: Request)
    requires Valid(q)
    ensures Parse(Unparse(q)) == Some(q)
  {
    var raw := Unparse(q);
    assert IsInteger(q.numberOfCaptions as real);
    assert ParseCount(raw.numberOfCaptions) == Some(q.numberOfCaptions);
    if q.strategy.Some? {
      assert ParseStrategy(raw.strategy.value) == Some(q.strategy.value);
    }
  }

  /** A raw request the schema accepts with its count given is exactly the
      raw form of what it parses to. */
  lemma UnparseParse(raw: RawRequest)
    requires Parse(raw).Some? && raw.numberOfCaptions.Some?
    ensures Unparse(Parse(raw).value) == raw
  {
  }
}

=== FILE: content_crafter.dfy ===
/** The content-crafter form: a brand description of at least 10
    characters (taken from the page's prop, and re-taken whenever the prop
    changes), a platform and a format from five names each, a topic and
    keywords of at least 3. A submission asks for 3 captions. */
module ContentCrafter {
  import opened Js
  import opened Forms
  import opened ResultPanel
  import opened Actions
  import CaptionsSchema

  const Platforms: seq<string> := ["Instagram", "TikTok", "LinkedIn", "X", "Facebook"]
  const Formats: seq<string> := ["Carousel", "Video", "Story", "Reel", "Post"]

  /** The number of captions every submission asks for. */
  const CaptionCount := 3

  /** `brandDescription` is `undefined` when the page passes no prop. */
  datatype FormValues = FormValues(brandDescription: Option<string>, platform: string, contentFormat: string,
                                   topic: string, keywords: string)

  /** The initial values: the prop or `''`, Instagram, Post. */
  function Defaults(prop: Option<string>): (r: FormValues)
    ensures r.brandDescription.Some?
    ensures prop.Some? ==> r.brandDescription == prop
    ensures prop.None? ==> r.brandDescription == Some("")
    ensures r.platform == "Instagram" && r.contentFormat == "Post" && r.topic == "" && r.keywords == ""
  {
    FormValues(Some(Or(prop, "")), "Instagram", "Post", "", "")
  }

  /** The effect that copies the prop into the form when it changes. */
  function SyncProp(v: FormValues, prop: Option<string>): (r: FormValues)
    ensures r.brandDescription == prop
    ensures r.(brandDescription := v.brandDescription) == v
  {
    v.(brandDescription := prop)
  }

  function Validate(v: FormValues): (r: seq<Issue>)
    ensures r == [] <==> (&& v.brandDescription.Some? && |v.brandDescription.value| >= 10
                          && v.platform in Platforms && v.contentFormat in Formats
                          && |v.topic| >= 3 && |v.keywords| >= 3)
  {
    MinLengthOf("brandDescription", v.brandDescription, 10, "Brand description must be at least 10 characters.")
    + OneOf("platform", v.platform, Platforms)
    + OneOf("contentFormat", v.contentFormat, Formats)
    + MinLength("topic", v.topic, 3, "Topic must be at least 3 characters.")
    + MinLength("keywords", v.keywords, 3, "Please provide at least one keyword.")
  }

  /** `{...values, numberOfCaptions: 3}`. */
  function Request(v: FormValues): (r: CaptionsSchema.RawRequest)
    ensures r.numberOfCaptions == Some(CaptionCount as real) && r.strategy.None?
    ensures r.platform == v.platform && r.contentFormat == v.contentFormat
    ensures r.topic == v.topic && r.keywords == v.keywords
    ensures v.brandDescription.Some? ==> r.brandDescription == v.brandDescription.value
    ensures v.brandDescription.None? ==> r.brandDescription == ""
  {
    CaptionsSchema.RawRequest(Or(v.brandDescription, ""),
                              v.platform, v.contentFormat, v.topic, v.keywords, Some(CaptionCount as real), None)
  }

  /** The form's two enums are the caption schema's, so whatever the form
      accepts the caption flow accepts too, asking for 3 captions. */
  lemma ValidFormMakesValidRequest(v: FormValues)
    requires Validate(v) == []
    ensures CaptionsSchema.Parse(Request(v)).Some?
    ensures CaptionsSchema.Parse(Request(v)).value.numberOfCaptions == CaptionCount
  {
    assert Platforms == CaptionsSchema.Platforms && Formats == CaptionsSchema.Formats;
    assert CaptionsSchema.IsInteger(CaptionCount as real);
  }

  /** With the prop given, the form opens with only topic and keywords
      missing when the prop is long enough. */
  lemma DefaultsNeedTopicAndKeywords(prop: string)
    requires |prop| >= 10
    ensures |Validate(Defaults(Some(prop)))| == 2
  {
  }

  /** The effect also runs on mount, so a form rendered without the prop
      holds an undefined description rather than `''`, and validating it
      reports `Required` before any length message. */
  lemma MountedWithoutProp()
    ensures var v := SyncProp(Defaults(None), None);
            && v.brandDescription.None?
            && Validate(v)[0] == Issue("brandDescription", Required)
  {
  }

  function Submit(p: Panel<CaptionsSchema.Output>, v: FormValues,
                  backend: CaptionsSchema.RawRequest -> Reply<CaptionsSchema.Output>): (r: Panel<CaptionsSchema.Output>)
    ensures Validate(v) != [] ==> r == p
    ensures Validate(v) == [] ==> (r.result.Some? <==> Succeeded(backend(Request(v))))
    ensures Validate(v) == [] && Succeeded(backend(Request(v))) ==> r.result == backend(Request(v)).data
  {
    HandleSubmit(p, Validate(v), Request(v), backend)
  }
}

=== FILE: firestore.dfy ===
/** The journey store: a collection of documents keyed by id. A save with an
    id updates that document, a save without one creates a document under a
    fresh id; a read of a missing id yields null; the listing is ordered by
    `savedAt`, newest first. The store is a map, the database handle may be
    uninitialised, and `fault` stands for a failure reported by the database
    client (its message). */
module Firestore {
  import opened Js
  import opened State

  /** The serialised session as it is stored. Serialising and parsing the
      session is taken to be an exact round trip. */
  datatype Payload = Json(state: SharedState)

  function Stringify(s: SharedState): (p: Payload)
    ensures Parse(p) == s
  {
    Json(s)
  }

  function Parse(p: Payload): SharedState {
    p.state
  }

  /** A stored document; `savedAt` is a server timestamp in milliseconds. */
  datatype Doc = Doc(name: string, journeyData: Payload, savedAt: int)

  datatype Db = Uninitialised | Ready(docs: map<string, Doc>)

  /** One entry of the listing sent to the client. */
  datatype ListItem = ListItem(id: string, name: string, savedAt: int)

  const NotInitialised := "Firestore is not initialized. Check your FIREBASE_SERVICE_ACCOUNT environment variable."
  const SaveFailed := "Failed to save to Firestore. Please ensure your FIREBASE_SERVICE_ACCOUNT in the .env file is correct and has Firestore permissions. Original Error: "
  const ListFailed := "Failed to get journeys from Firestore. Please ensure your FIREBASE_SERVICE_ACCOUNT in the .env file is correct and has Firestore permissions. Original Error: "
  const GetFailed := "Failed to get journey from Firestore. Please ensure your FIREBASE_SERVICE_ACCOUNT in the .env file is correct and has Firestore permissions. Original Error: "
  /** The client library's complaint when updating a document that does not exist. */
  const NoDocumentToUpdate := "No document to update"

  /** `newId` can serve as the id of a created document. */
  predicate FreshFor(db: Db, newId: string) {
    db.Ready? ==> newId !in db.docs && newId != ""
  }

  /** The result of a save: the id saved under, or what was thrown; and the
      store afterwards. */
  datatype SaveResult = SaveResult(outcome: Attempt<string>, db: Db)

  function Failure<T>(message: string): Attempt<T> {
    Threw(ErrorObject(message))
  }

  /** Saves `state` under `name`: an update when `id` is truthy, otherwise a
      create under `newId`. */
  function SaveJourney(db: Db, state: SharedState, name: string, id: Option<string>,
                       at: int, newId: string, fault: Option<string>): (r: SaveResult)
    requires FreshFor(db, newId)
    ensures db.Uninitialised? ==> r == SaveResult(Failure(NotInitialised), db)
    ensures r.outcome.Threw? ==> r.db == db
    ensures r.outcome.Threw? ==> r.outcome.exception.ErrorObject?
    ensures db.Ready? && fault.Some? ==> r.outcome == Failure(SaveFailed + fault.value)
    ensures r.outcome.Returned? ==>
              && r.db.Ready? && db.Ready?
              && var k := r.outcome.value;
                 && r.db.docs == db.docs[k := Doc(name, Stringify(state), at)]
                 && (TruthyOpt(id) ==> k == id.value && k in db.docs)
                 && (!TruthyOpt(id) ==> k == newId && k !in db.docs)
    ensures db.Ready? && fault.None? ==> (r.outcome.Returned? <==> (!TruthyOpt(id) || id.value in db.docs))
  {
    if db.Uninitialised? then SaveResult(Failure(NotInitialised), db)
    else if fault.Some? then SaveResult(Failure(SaveFailed + fault.value), db)
    else
      var doc := Doc(name, Stringify(state), at);
      if TruthyOpt(id) then
        if id.value in db.docs then SaveResult(Returned(id.value), Ready(db.docs[id.value := doc]))
        else SaveResult(Failure(SaveFailed + NoDocumentToUpdate), db)
      else SaveResult(Returned(newId), Ready(db.docs[newId := doc]))
  }

  /** Reads one journey: null when there is no such document. */
  function GetJourney(db: Db, id: string, fault: Option<string>): (r: Attempt<Option<SharedState>>)
    ensures db.Uninitialised? ==> r == Failure(NotInitialised)
    ensures db.Ready? && fault.Some? ==> r == Failure(GetFailed + fault.value)
    ensures db.Ready? && fault.None? && id !in db.docs ==> r == Returned(None)
    ensures db.Ready? && fault.None? && id in db.docs ==> r == Returned(Some(Parse(db.docs[id].journeyData)))
  {
    if db.Uninitialised? then Failure(NotInitialised)
    else if fault.Some? then Failure(GetFailed + fault.value)
    else if id !in db.docs then Returned(None)
    else Returned(Some(Parse(db.docs[id].journeyData)))
  }

  function ItemOf(docs: map<string, Doc>, id: string): ListItem
    requires id in docs
  {
    ListItem(id, docs[id].name, docs[id].savedAt)
  }

  /** The listing entries of the documents whose ids are in `ids`. */
  function Entries(docs: map<string, Doc>, ids: set<string>): set<ListItem>
    requires ids <= docs.Keys
  {
    set id | id in ids :: ItemOf(docs, id)
  }

  predicate NewestFirst(xs: seq<ListItem>) {
    forall i, j :: 0 <= i < j < |xs| ==> xs[i].savedAt >= xs[j].savedAt
  }

  /** Places `it` into a newest-first list, before the first entry that is
      not newer than it. */
  function InsertByRecency(xs: seq<ListItem>, it: ListItem): (r: seq<ListItem>)
    requires NewestFirst(xs)
    ensures NewestFirst(r)
    ensures multiset(r) == multiset(xs) + multiset{it}
    ensures r[0] == it || (xs != [] && r[0] == xs[0])
    decreases |xs|
  {
    if xs == [] || it.savedAt >= xs[0].savedAt then [it] + xs
    else
      var rest := InsertByRecency(xs[1..], it);
      assert xs == [xs[0]] + xs[1..];
      assert xs[0].savedAt >= rest[0].savedAt;
      [xs[0]] + rest
  }

  lemma EntriesAddOne(docs: map<string, Doc>, ids: set<string>, id: string)
    requires ids <= docs.Keys && id in docs && id !in ids
    ensures ItemOf(docs, id) !in Entries(docs, ids)
    ensures multiset(Entries(docs, ids + {id})) == multiset(Entries(docs, ids)) + multiset{ItemOf(docs, id)}
  {
    assert Entries(docs, ids + {id}) == Entries(docs, ids) + {ItemOf(docs, id)};
  }

  /** Lists every journey, newest first: one entry per document, carrying
      its id, name and save time, and nothing else. */
  method GetJourneys(db: Db, fault: Option<string>) returns (r: Attempt<seq<ListItem>>)
    ensures db.Uninitialised? ==> r == Failure(NotInitialised)
    ensures db.Ready? && fault.Some? ==> r == Failure(ListFailed + fault.value)
    ensures db.Ready? && fault.None? ==> r.Returned?
    ensures r.Returned? ==> (&& db.Ready?
                             && NewestFirst(r.value)
                             && multiset(r.value) == multiset(Entries(db.docs, db.docs.Keys)))
    ensures r.Returned? && db.docs == map[] ==> r.value == []
  {
    if db.Uninitialised? {
      return Failure(NotInitialised);
    }
    if fault.Some? {
      return Failure(ListFailed + fault.value);
    }
    var docs := db.docs;
    var listed: seq<ListItem> := [];
    var done: set<string> := {};
    var todo := docs.Keys;
    while todo != {}
      invariant done + todo == docs.Keys && done !! todo
      invariant NewestFirst(listed)
      invariant multiset(listed) == multiset(Entries(docs, done))
      decreases todo
    {
      var id :| id in todo;
      EntriesAddOne(docs, done, id);
      listed := InsertByRecency(listed, ItemOf(docs, id));
      done := done + {id};
      todo := todo - {id};
    }
    if docs == map[] {
      assert Entries(docs, done) == {};
      assert multiset(listed) == multiset{};
    }
    return Returned(listed);
  }

  /** A listing entry corresponds to exactly one stored document. */
  lemma ListedEntryIsStored(docs: map<string, Doc>, item: ListItem)
    requires item in Entries(docs, docs.Keys)
    ensures item.id in docs && item == ItemOf(docs, item.id)
  {
  }
}

=== FILE: forms.dfy ===
/** Form validation as the schema library performs it: each check on a
    field either passes or reports one issue with the field's path and the
    message the schema gives. */
module Forms {
  import opened Js

  datatype Issue = Issue(path: string, message: string)

  /** The message for a field whose value is `undefined`. */
  const Required := "Required"

  /** `z.string().min(n, message)`. */
  function MinLength(path: string, value: string, n: nat, message: string): (r: seq<Issue>)
    ensures r == [] <==> |value| >= n
    ensures r != [] ==> r == [Issue(path, message)]
  {
    if |value| < n then [Issue(path, message)] else []
  }

  /** `z.string().max(n, message)`. */
  function MaxLength(path: string, value: string, n: nat, message: string): (r: seq<Issue>)
    ensures r == [] <==> |value| <= n
    ensures r != [] ==> r == [Issue(path, message)]
  {
    if |value| > n then [Issue(path, message)] else []
  }

  /** `z.string().min(n, message)` on a field that may be `undefined`. */
  function MinLengthOf(path: string, value: Option<string>, n: nat, message: string): (r: seq<Issue>)
    ensures r == [] <==> (value.Some? && |value.value| >= n)
    ensures value.None? ==> r == [Issue(path, Required)]
    ensures value.Some? && |value.value| < n ==> r == [Issue(path, message)]
  {
    match value
    case None => [Issue(path, Required)]
    case Some(v) => MinLength(path, v, n, message)
  }

  /** `z.enum(options)`: the zod message names the options and the value. */
  function OneOf(path: string, value: string, options: seq<string>): (r: seq<Issue>)
    ensures r == [] <==> value in options
    ensures r != [] ==> |r| == 1 && r[0].path == path
  {
    if value in options then [] else [Issue(path, "Invalid enum value. Expected " + Alternatives(options) + ", received '" + value + "'")]
  }

  /** `'a' | 'b' | ...` */
  function Alternatives(options: seq<string>): string {
    if options == [] then ""
    else if |options| == 1 then "'" + options[0] + "'"
    else "'" + options[0] + "' | " + Alternatives(options[1..])
  }
}

=== FILE: journeys.dfy ===
/** Properties of the session and the store taken together: what a save
    leaves behind, what loading it back gives, and the invariant that the
    session's current journey names a stored document. */
module Journeys {
  import opened Js
  import opened State
  import opened Actions
  import opened Firestore
  import opened Provider

  /** The session's current journey, if any, is a document of the store. */
  predicate CurrentStored(s: SharedState, db: Db) {
    && db.Ready?
    && (s.currentJourney.Some? ==> s.currentJourney.value.id in db.docs)
  }

  /** With a healthy store, saving the current journey succeeds whenever the
      current journey is stored (or there is none), and the invariant holds
      afterwards whatever happened. */
  lemma SaveCurrentKeepsStored(s: SharedState, db: Db, name: string, at: int, newId: string,
                               fault: Option<string>, now: string)
    requires FreshFor(db, newId) && CurrentStored(s, db)
    ensures var r := SaveCurrentJourney(s, db, name, at, newId, fault, now);
            && (fault.None? ==> r.ok)
            && CurrentStored(r.state, r.db)
  {
    var sr := Firestore.SaveJourney(db, s, name, CurrentId(s), at, newId, fault);
    if fault.None? {
      assert sr.outcome.Returned?;
    }
  }

  /** Saving as new never touches the current journey's document, and on
      success the new id is a different one. */
  lemma SaveAsNewKeepsOld(s: SharedState, db: Db, name: string, at: int, newId: string,
                          fault: Option<string>, now: string)
    requires FreshFor(db, newId) && CurrentStored(s, db)
    ensures var r := SaveAsNewJourney(s, db, name, at, newId, fault, now);
            && (fault.None? <==> r.ok)
            && CurrentStored(r.state, r.db)
            && (s.currentJourney.Some? ==>
                  && r.db.Ready?
                  && s.currentJourney.value.id in r.db.docs
                  && r.db.docs[s.currentJourney.value.id] == db.docs[s.currentJourney.value.id]
                  && (r.ok ==> r.state.currentJourney.value.id != s.currentJourney.value.id))
  {
  }

  /** A successful save can be read back: the stored session is the one
      saved, and loading it reproduces the session as it stood after the
      save, with an empty error log. The listing shows it under the name
      and time of the save. */
  lemma SaveThenLoad(s: SharedState, db: Db, name: string, at: int, newId: string,
                     now: string, other: SharedState)
    requires FreshFor(db, newId)
    ensures var r := SaveCurrentJourney(s, db, name, at, newId, None, now);
            r.ok ==>
              && r.db.Ready?
              && var j := r.state.currentJourney.value;
                 && LoadJourney(r.db, j.id, None) == Reply(Some(Some(s)), None)
                 && LoadFullJourney(other, j, s) == r.state.(errors := [])
                 && ListItem(j.id, name, at) in Entries(r.db.docs, r.db.docs.Keys)
  {
    var r := SaveCurrentJourney(s, db, name, at, newId, None, now);
    if r.ok {
      var j := r.state.currentJourney.value;
      var sr := Firestore.SaveJourney(db, s, name, CurrentId(s), at, newId, None);
      assert sr.outcome.Returned? && sr.outcome.value == j.id;
      assert r.db.docs[j.id] == Doc(name, Stringify(s), at);
      assert ItemOf(r.db.docs, j.id) == ListItem(j.id, name, at);
      var a := LoadFullJourney(other, j, s);
      var b := r.state.(errors := []);
      assert UnchangedExcept(a, b, {}) by {
        forall f ensures SameAt(a, b, f) {
          assert SameAt(s, a, f) || f in {Errors, CurrentJourney};
        }
      }
      UnchangedNothingIsEqual(a, b);
    }
  }

  /** Updating the current journey keeps the set of documents and changes
      only the current one. */
  lemma UpdateInPlace(s: SharedState, db: Db, name: string, at: int, newId: string,
                      fault: Option<string>, now: string)
    requires FreshFor(db, newId) && CurrentStored(s, db)
    requires s.currentJourney.Some? && s.currentJourney.value.id != ""
    ensures var r := SaveCurrentJourney(s, db, name, at, newId, fault, now);
            r.ok ==> && r.db.Ready?
                     && r.db.docs.Keys == db.docs.Keys
                     && (forall k :: k in db.docs && k != s.currentJourney.value.id ==> r.db.docs[k] == db.docs[k])
  {
  }
}

=== FILE: js.dfy ===
/** JavaScript value semantics the rest of the model leans on: nullable
    values, thrown exceptions, truthiness of strings and the `String`
    methods `trim` and `endsWith`. */
module Js {

  /** A nullable value: `None` stands for `null` or `undefined`. */
  datatype Option<+T> = None | Some(value: T)

  /** `o ?? d`, and `o || d` for a value whose present forms are all truthy. */
  function Or<T>(o: Option<T>, d: T): T {
    match o
    case Some(v) => v
    case None => d
  }

  /** A thrown value: an `Error` instance (with its `message`) or anything else. */
  datatype Exception = ErrorObject(message: string) | OtherThrown

  /** The outcome of awaiting a promise: it resolves or it rejects. */
  datatype Attempt<+T> = Returned(value: T) | Threw(exception: Exception)

  /** A string is truthy exactly when it is not empty. */
  predicate Truthy(s: string) {
    |s| > 0
  }

  /** A nullable string is truthy when it is present and not empty. */
  predicate TruthyOpt(s: Option<string>) {
    s.Some? && Truthy(s.value)
  }

  /** The characters `String.prototype.trim` strips: the WhiteSpace and
      LineTerminator code points of ECMAScript. */
  predicate IsWhitespace(c: char) {
    || c == ' ' || c == '\t' || c == '\n' || c == '\r'
    || c == '\U{000B}' || c == '\U{000C}' || c == '\U{00A0}' || c == '\U{FEFF}'
    || c == '\U{1680}' || ('\U{2000}' <= c <= '\U{200A}')
    || c == '\U{2028}' || c == '\U{2029}' || c == '\U{202F}' || c == '\U{205F}'
    || c == '\U{3000}'
  }

  predicate AllWhitespace(s: string) {
    forall i :: 0 <= i < |s| ==> IsWhitespace(s[i])
  }

  /** Strips leading whitespace. */
  function TrimStart(s: string): (r: string)
    ensures |r| <= |s| && r == s[|s| - |r|..]
    ensures r != [] ==> !IsWhitespace(r[0])
    ensures AllWhitespace(s[..|s| - |r|])
  {
    if s == [] then s
    else if IsWhitespace(s[0]) then
      var t := TrimStart(s[1..]);
      assert s[1..][..|s[1..]| - |t|] == s[1..|s| - |t|];
      t
    else s
  }

  /** Strips trailing whitespace. */
  function TrimEnd(s: string): (r: string)
    ensures |r| <= |s| && r == s[..|r|]
    ensures r != [] ==> !IsWhitespace(r[|r| - 1])
    ensures AllWhitespace(s[|r|..])
  {
    if s == [] then s
    else if IsWhitespace(s[|s| - 1]) then
      var t := TrimEnd(s[..|s| - 1]);
      assert s[..|s| - 1][..|t|] == s[..|t|];
      assert s[|t|..] == s[..|s| - 1][|t|..] + [s[|s| - 1]];
      t
    else s
  }

  /** `s.trim()`. */
  function Trim(s: string): string {
    TrimEnd(TrimStart(s))
  }

  /** `!s.trim()` holds exactly when every character of `s` is whitespace. */
  lemma TrimEmptyIffBlank(s: string)
    ensures Trim(s) == [] <==> AllWhitespace(s)
  {
    var t := TrimStart(s);
    if Trim(s) == [] {
      // Nothing survives the front trim: its first character would be
      // non-whitespace, yet the back trim removed it.
      assert t[0..] == t;
      assert |t| == 0;
      assert s[..|s| - |t|] == s;
    } else {
      assert t != [];
      assert !IsWhitespace(t[0]);
      assert t[0] == s[|s| - |t|];
    }
  }

  /** `s.endsWith(suffix)`. */
  predicate EndsWith(s: string, suffix: string) {
    |suffix| <= |s| && s[|s| - |suffix|..] == suffix
  }

  /** A string ending in `suffix` is some prefix followed by `suffix`, and
      every such concatenation ends in `suffix`. */
  lemma EndsWithIffSplit(s: string, suffix: string)
    ensures EndsWith(s, suffix) <==> exists p :: s == p + suffix
  {
    if EndsWith(s, suffix) {
      var p := s[..|s| - |suffix|];
      assert s == p + suffix;
    }
    if exists p :: s == p + suffix {
      var p :| s == p + suffix;
      assert s[|s| - |suffix|..] == suffix;
    }
  }
}

=== FILE: load_journey_dialog.dfy ===
/** The load dialog: opening it fetches the journey list; loading the
    selected journey reads it from the store and hands `{id, name}` of the
    matching list entry, with the loaded session, to the page. */
module LoadJourneyDialog {
  import opened Js
  import opened State
  import opened Actions
  import Firestore

  datatype Dialog = Dialog(isOpen: bool, journeys: seq<Firestore.ListItem>, isLoading: bool, selected: Option<string>)

  /** The fetch run when the dialog opens: the list is replaced on success
      and kept on error. */
  function Fetched(d: Dialog, reply: Reply<seq<Firestore.ListItem>>): (r: Dialog)
    ensures !r.isLoading
    ensures Failed(reply) ==> r.journeys == d.journeys
    ensures !Failed(reply) && reply.data.Some? ==> r.journeys == reply.data.value
    ensures !Failed(reply) && reply.data.None? ==> r.journeys == d.journeys
    ensures r.(journeys := d.journeys, isLoading := d.isLoading) == d
  {
    if TruthyOpt(reply.error) then d.(isLoading := false)
    else if reply.data.Some? then d.(journeys := reply.data.value, isLoading := false)
    else d.(isLoading := false)
  }

  /** The position of the first entry with the given id. */
  function FirstIndex(xs: seq<Firestore.ListItem>, id: string): (r: Option<nat>)
    ensures r.None? <==> forall i :: 0 <= i < |xs| ==> xs[i].id != id
    ensures r.Some? ==> r.value < |xs| && xs[r.value].id == id
    ensures r.Some? ==> forall k :: 0 <= k < r.value ==> xs[k].id != id
  {
    if xs == [] then None
    else if xs[0].id == id then Some(0)
    else match FirstIndex(xs[1..], id)
      case None => None
      case Some(k) => Some(k + 1)
  }

  /** `journeys.find(j => j.id === id)`. */
  function Find(xs: seq<Firestore.ListItem>, id: string): (r: Option<Firestore.ListItem>)
    ensures r.None? <==> forall i :: 0 <= i < |xs| ==> xs[i].id != id
    ensures r.Some? ==> r.value in xs && r.value.id == id
    ensures r.Some? ==> FirstIndex(xs, id).Some? && r.value == xs[FirstIndex(xs, id).value]
  {
    match FirstIndex(xs, id)
    case None => None
    case Some(i) => Some(xs[i])
  }

  /** What the page's `onLoad` receives. */
  datatype Loaded = Loaded(journey: Journey, state: SharedState)

  datatype Step = Step(dialog: Dialog, loaded: Option<Loaded>)

  /** The "Load Journey" handler. */
  function HandleLoad(d: Dialog, db: Firestore.Db, fault: Option<string>): (r: Step)
    ensures !TruthyOpt(d.selected) ==> r == Step(d, None)
    ensures TruthyOpt(d.selected) ==> !r.dialog.isLoading && r.dialog.selected.None?
    ensures TruthyOpt(d.selected) ==> r.dialog.journeys == d.journeys
    ensures r.loaded.Some? ==>
              && TruthyOpt(d.selected)
              && var reply := LoadJourney(db, d.selected.value, fault);
                 && reply.data == Some(Some(r.loaded.value.state))
                 && var j := Find(d.journeys, d.selected.value);
                    && j.Some?
                    && r.loaded.value.journey == Journey(j.value.id, j.value.name)
    ensures r.dialog.isOpen == (d.isOpen && r.loaded.None?)
  {
    if !TruthyOpt(d.selected) then Step(d, None)
    else
      var id := d.selected.value;
      var reply := LoadJourney(db, id, fault);
      var done := d.(isLoading := false, selected := None);
      if TruthyOpt(reply.error) then Step(done, None)
      else match reply.data
        case Some(Some(st)) =>
          (match Find(d.journeys, id)
           case Some(j) => Step(done.(isOpen := false), Some(Loaded(Journey(j.id, j.name), st)))
           case None => Step(done, None))
        case _ => Step(done, None)
  }

  /** With a healthy store, a selection that is listed and stored is
      loaded, with the stored session and the listed name. */
  lemma LoadsListedStoredJourney(d: Dialog, db: Firestore.Db, i: nat)
    requires db.Ready? && d.selected.Some? && d.selected.value != ""
    requires i < |d.journeys| && d.journeys[i].id == d.selected.value
    requires d.selected.value in db.docs
    ensures var r := HandleLoad(d, db, None);
            && r.loaded.Some?
            && r.loaded.value.state == Firestore.Parse(db.docs[d.selected.value].journeyData)
            && r.loaded.value.journey.id == d.selected.value
  {
    assert Find(d.journeys, d.selected.value).Some?;
  }
}

=== FILE: provider.dfy ===
/** The session provider: the initial session, the partial-merge update,
    the error log, the routing of action replies, one write per generation
    tool, autofill, and saving and loading journeys. Each operation is one
    transition of the session; the awaited reply, the clock (`now`, an ISO
    string) and the store are inputs. */
module Provider {
  import opened Js
  import opened State
  import opened Artifacts
  import CaptionsSchema
  import AutofillSchema
  import opened Actions
  import Firestore

  const InitialState := SharedState("", "", "", None, None, None, None, None, None, [], None)

  /** The fresh session holds no facts, no artifacts, no errors and no journey. */
  lemma InitialStateIsBlank()
    ensures InitialState.brandDetails == "" && InitialState.targetDemographic == "" && InitialState.industry == ""
    ensures NoArtifacts(InitialState)
    ensures InitialState.errors == [] && InitialState.currentJourney.None?
  {
  }

  /** `Partial<SharedState>`: a field is either absent or carries a new
      value (which for a nullable field may itself be null). */
  datatype StatePatch = StatePatch(
    brandDetails: Option<string>,
    targetDemographic: Option<string>,
    industry: Option<string>,
    audienceAnalysisReport: Option<Option<AudienceInsightsOutput>>,
    strategy: Option<Option<StrategyOutput>>,
    trends: Option<Option<TrendsOutput>>,
    hooks: Option<Option<HooksOutput>>,
    captions: Option<Option<CaptionsSchema.Output>>,
    calendar: Option<Option<CalendarOutput>>,
    errors: Option<seq<AppError>>,
    currentJourney: Option<Option<Journey>>)

  const EmptyPatch := StatePatch(None, None, None, None, None, None, None, None, None, None, None)

  /** Whether a patch carries field `f`. */
  predicate Carries(p: StatePatch, f: Field) {
    match f
    case BrandDetails => p.brandDetails.Some?
    case TargetDemographic => p.targetDemographic.Some?
    case Industry => p.industry.Some?
    case AudienceAnalysisReport => p.audienceAnalysisReport.Some?
    case StrategySlot => p.strategy.Some?
    case TrendsSlot => p.trends.Some?
    case HooksSlot => p.hooks.Some?
    case CaptionsSlot => p.captions.Some?
    case CalendarSlot => p.calendar.Some?
    case Errors => p.errors.Some?
    case CurrentJourney => p.currentJourney.Some?
  }

  /** `{...prev, ...patch}`. */
  function UpdateState(s: SharedState, p: StatePatch): (r: SharedState)
    ensures forall f :: !Carries(p, f) ==> SameAt(s, r, f)
    ensures p.brandDetails.Some? ==> r.brandDetails == p.brandDetails.value
    ensures p.targetDemographic.Some? ==> r.targetDemographic == p.targetDemographic.value
    ensures p.industry.Some? ==> r.industry == p.industry.value
    ensures p.audienceAnalysisReport.Some? ==> r.audienceAnalysisReport == p.audienceAnalysisReport.value
    ensures p.strategy.Some? ==> r.strategy == p.strategy.value
    ensures p.trends.Some? ==> r.trends == p.trends.value
    ensures p.hooks.Some? ==> r.hooks == p.hooks.value
    ensures p.captions.Some? ==> r.captions == p.captions.value
    ensures p.calendar.Some? ==> r.calendar == p.calendar.value
    ensures p.errors.Some? ==> r.errors == p.errors.value
    ensures p.currentJourney.Some? ==> r.currentJourney == p.currentJourney.value
  {
    SharedState(
      Or(p.brandDetails, s.brandDetails),
      Or(p.targetDemographic, s.targetDemographic),
      Or(p.industry, s.industry),
      Or(p.audienceAnalysisReport, s.audienceAnalysisReport),
      Or(p.strategy, s.strategy),
      Or(p.trends, s.trends),
      Or(p.hooks, s.hooks),
      Or(p.captions, s.captions),
      Or(p.calendar, s.calendar),
      Or(p.errors, s.errors),
      Or(p.currentJourney, s.currentJourney))
  }

  /** `{...p, ...q}`: the fields of `q` win. */
  function Merge(p: StatePatch, q: StatePatch): StatePatch {
    StatePatch(
      if q.brandDetails.Some? then q.brandDetails else p.brandDetails,
      if q.targetDemographic.Some? then q.targetDemographic else p.targetDemographic,
      if q.industry.Some? then q.industry else p.industry,
      if q.audienceAnalysisReport.Some? then q.audienceAnalysisReport else p.audienceAnalysisReport,
      if q.strategy.Some? then q.strategy else p.strategy,
      if q.trends.Some? then q.trends else p.trends,
      if q.hooks.Some? then q.hooks else p.hooks,
      if q.captions.Some? then q.captions else p.captions,
      if q.calendar.Some? then q.calendar else p.calendar,
      if q.errors.Some? then q.errors else p.errors,
      if q.currentJourney.Some? then q.currentJourney else p.currentJourney)
  }

  /** An empty patch changes nothing. */
  lemma UpdateEmptyIsIdentity(s: SharedState)
    ensures UpdateState(s, EmptyPatch) == s
  {
  }

  /** Two updates in a row are one update with the merged patch, and
      repeating an update changes nothing further. */
  lemma UpdatesCompose(s: SharedState, p: StatePatch, q: StatePatch)
    ensures UpdateState(UpdateState(s, p), q) == UpdateState(s, Merge(p, q))
    ensures UpdateState(UpdateState(s, p), p) == UpdateState(s, p)
  {
  }

  /** Appends one `{message, timestamp}` entry to the log. */
  function AddError(s: SharedState, message: string, now: string): (r: SharedState)
    ensures UnchangedExcept(s, r, {Errors})
    ensures |r.errors| == |s.errors| + 1
    ensures r.errors[..|s.errors|] == s.errors
    ensures r.errors[|s.errors|] == AppError(message, now)
  {
    UpdateState(s, EmptyPatch.(errors := Some(s.errors + [AppError(message, now)])))
  }

  function ClearErrors(s: SharedState): (r: SharedState)
    ensures UnchangedExcept(s, r, {Errors})
    ensures r.errors == []
  {
    UpdateState(s, EmptyPatch.(errors := Some([])))
  }

  /** Clearing forgets every earlier entry, however many were appended. */
  lemma ClearAfterAdd(s: SharedState, message: string, now: string)
    ensures ClearErrors(AddError(s, message, now)) == ClearErrors(s)
  {
    UnchangedNothingIsEqual(ClearErrors(AddError(s, message, now)), ClearErrors(s));
  }

  /** The new session and the value `handleAction` resolves to. */
  datatype Handled<+U> = Handled(state: SharedState, value: Option<U>)

  /** `handleAction`: a truthy error is logged and yields null; otherwise
      present data runs the success patch and is returned; otherwise null
      and no change. */
  function HandleAction<U>(s: SharedState, reply: Reply<U>, now: string, onSuccess: U -> StatePatch): (r: Handled<U>)
    ensures Failed(reply) ==> r == Handled(AddError(s, reply.error.value, now), None)
    ensures Succeeded(reply) ==> r == Handled(UpdateState(s, onSuccess(reply.data.value)), reply.data)
    ensures !Failed(reply) && !Succeeded(reply) ==> r == Handled(s, None)
    ensures r.value.Some? <==> Succeeded(reply)
  {
    if TruthyOpt(reply.error) then Handled(AddError(s, reply.error.value, now), None)
    else if reply.data.Some? then Handled(UpdateState(s, onSuccess(reply.data.value)), reply.data)
    else Handled(s, None)
  }

  /** The error is checked first: a reply carrying both a truthy error and
      data never runs the success patch. */
  lemma ErrorWinsOverData<U>(s: SharedState, d: U, message: string, now: string, onSuccess: U -> StatePatch)
    requires message != ""
    ensures HandleAction(s, Reply(Some(d), Some(message)), now, onSuccess) == Handled(AddError(s, message, now), None)
  {
  }

  /** Routing a wrapped call: a result runs the success patch, a thrown
      value with a message is logged, and an `Error` with an empty message
      is dropped without a trace. */
  lemma HandleWrapped<U>(s: SharedState, a: Attempt<U>, now: string, onSuccess: U -> StatePatch)
    ensures a.Returned? ==> HandleAction(s, Wrap(a), now, onSuccess) == Handled(UpdateState(s, onSuccess(a.value)), Some(a.value))
    ensures a.Threw? && MessageOf(a.exception) != "" ==>
              HandleAction(s, Wrap(a), now, onSuccess) == Handled(AddError(s, MessageOf(a.exception), now), None)
    ensures a == Threw(ErrorObject("")) ==> HandleAction(s, Wrap(a), now, onSuccess) == Handled(s, None)
  {
    WrapReading(a);
  }

  /** How a generation reply changed the session, shared by all tools:
      success touches only `slots`; a failure only appends to the log; a
      reply that is neither leaves the session alone. */
  predicate ToolStep<U>(s: SharedState, reply: Reply<U>, now: string, slots: set<Field>, r: SharedState) {
    && (Succeeded(reply) ==> UnchangedExcept(s, r, slots))
    && (Failed(reply) ==> r == AddError(s, reply.error.value, now))
    && (!Succeeded(reply) && !Failed(reply) ==> r == s)
  }

  function GenerateAudienceInsights(s: SharedState, input: AudienceInsightsInput,
                                    reply: Reply<AudienceInsightsOutput>, now: string): (r: SharedState)
    ensures ToolStep(s, reply, now, {BrandDetails, TargetDemographic, AudienceAnalysisReport}, r)
    ensures Succeeded(reply) ==> (&& r.audienceAnalysisReport == reply.data
                                  && r.brandDetails == input.brandDetails
                                  && r.targetDemographic == input.targetDemographic)
  {
    HandleAction(s, reply, now,
      (d: AudienceInsightsOutput) => EmptyPatch.(brandDetails := Some(input.brandDetails),
                                                 targetDemographic := Some(input.targetDemographic),
                                                 audienceAnalysisReport := Some(Some(d)))).state
  }

  function GenerateStrategy(s: SharedState, reply: Reply<StrategyOutput>, now: string): (r: SharedState)
    ensures ToolStep(s, reply, now, {StrategySlot}, r)
    ensures Succeeded(reply) ==> r.strategy == reply.data
  {
    HandleAction(s, reply, now, (d: StrategyOutput) => EmptyPatch.(strategy := Some(Some(d)))).state
  }

  function GenerateTrends(s: SharedState, reply: Reply<TrendsOutput>, now: string): (r: SharedState)
    ensures ToolStep(s, reply, now, {TrendsSlot}, r)
    ensures Succeeded(reply) ==> r.trends == reply.data
  {
    HandleAction(s, reply, now, (d: TrendsOutput) => EmptyPatch.(trends := Some(Some(d)))).state
  }

  function GenerateViralHooks(s: SharedState, reply: Reply<HooksOutput>, now: string): (r: SharedState)
    ensures ToolStep(s, reply, now, {HooksSlot}, r)
    ensures Succeeded(reply) ==> r.hooks == reply.data
  {
    HandleAction(s, reply, now, (d: HooksOutput) => EmptyPatch.(hooks := Some(Some(d)))).state
  }

  function GenerateContentCaptions(s: SharedState, reply: Reply<CaptionsSchema.Output>, now: string): (r: SharedState)
    ensures ToolStep(s, reply, now, {CaptionsSlot}, r)
    ensures Succeeded(reply) ==> r.captions == reply.data
  {
    HandleAction(s, reply, now, (d: CaptionsSchema.Output) => EmptyPatch.(captions := Some(Some(d)))).state
  }

  function GenerateContentCalendar(s: SharedState, reply: Reply<CalendarOutput>, now: string): (r: SharedState)
    ensures ToolStep(s, reply, now, {CalendarSlot}, r)
    ensures Succeeded(reply) ==> r.calendar == reply.data
  {
    HandleAction(s, reply, now, (d: CalendarOutput) => EmptyPatch.(calendar := Some(Some(d)))).state
  }

  /** A failed generation leaves every artifact slot and the brand fields
      as they were, whichever tool it was. */
  lemma FailureKeepsSlots<U>(s: SharedState, reply: Reply<U>, now: string, slots: set<Field>, r: SharedState)
    requires ToolStep(s, reply, now, slots, r) && !Succeeded(reply)
    ensures UnchangedExcept(s, r, {Errors})
    ensures r.errors == s.errors || r.errors == s.errors + [AppError(reply.error.value, now)]
  {
    if Failed(reply) {
      assert r.errors[..|s.errors|] == s.errors;
      assert r.errors == r.errors[..|s.errors|] + [r.errors[|s.errors|]];
    }
  }

  /** The brand pair autofill hands back to its caller. */
  datatype BrandPair = BrandPair(brandDetails: string, targetDemographic: string)

  /** Autofill: on success both brand fields are taken from the result and
      the audience report is cleared; the pair is returned, else null. */
  function AutofillAudienceDetails(s: SharedState, reply: Reply<AutofillSchema.Output>, now: string): (r: (SharedState, Option<BrandPair>))
    ensures ToolStep(s, reply, now, {BrandDetails, TargetDemographic, AudienceAnalysisReport}, r.0)
    ensures Succeeded(reply) ==> (&& r.0.brandDetails == reply.data.value.brandDetails
                                  && r.0.targetDemographic == reply.data.value.targetDemographic
                                  && r.0.audienceAnalysisReport.None?)
    ensures r.1.Some? <==> Succeeded(reply)
    ensures r.1.Some? ==> r.1.value == BrandPair(r.0.brandDetails, r.0.targetDemographic)
  {
    var h := HandleAction(s, reply, now,
      (d: AutofillSchema.Output) => EmptyPatch.(brandDetails := Some(d.brandDetails),
                                                targetDemographic := Some(d.targetDemographic),
                                                audienceAnalysisReport := Some(None)));
    (h.state, match h.value
              case Some(d) => Some(BrandPair(d.brandDetails, d.targetDemographic))
              case None => None)
  }

  /** The session, the store and the boolean a save resolves to. */
  datatype Saved = Saved(state: SharedState, db: Firestore.Db, ok: bool)

  /** The id `saveCurrentJourney` passes on: the current journey's, if any. */
  function CurrentId(s: SharedState): Option<string> {
    match s.currentJourney
    case Some(j) => Some(j.id)
    case None => None
  }

  /** The common ending of both saves: adopt `{id, name}` on success, log
      the error on failure. */
  function FinishSave(s: SharedState, name: string, sr: SaveReply, now: string): (r: Saved)
    ensures r.db == sr.db
    ensures r.ok <==> Succeeded(sr.reply)
    ensures Succeeded(sr.reply) ==> r.state == s.(currentJourney := Some(Journey(sr.reply.data.value.id, name)))
    ensures Failed(sr.reply) ==> r.state == AddError(s, sr.reply.error.value, now)
    ensures !Succeeded(sr.reply) ==> r.state.currentJourney == s.currentJourney
    ensures !Succeeded(sr.reply) && !Failed(sr.reply) ==> r.state == s
  {
    var reply := sr.reply;
    if TruthyOpt(reply.error) then Saved(AddError(s, reply.error.value, now), sr.db, false)
    else if reply.data.Some? then
      Saved(UpdateState(s, EmptyPatch.(currentJourney := Some(Some(Journey(reply.data.value.id, name))))), sr.db, true)
    else Saved(s, sr.db, false)
  }

  /** `saveCurrentJourney`: updates the current journey's document if there
      is one, otherwise creates one. */
  function SaveCurrentJourney(s: SharedState, db: Firestore.Db, name: string, at: int, newId: string,
                              fault: Option<string>, now: string): (r: Saved)
    requires Firestore.FreshFor(db, newId)
    ensures r.ok ==> r.state.currentJourney.Some? && r.state.currentJourney.value.name == name
    ensures r.ok && s.currentJourney.Some? && s.currentJourney.value.id != "" ==>
              r.state.currentJourney.value.id == s.currentJourney.value.id
    ensures r.ok && !TruthyOpt(CurrentId(s)) ==> r.state.currentJourney.value.id == newId
    ensures r.ok ==> r.state == s.(currentJourney := r.state.currentJourney)
    ensures r.ok ==> db.Ready? && r.db == Firestore.Ready(db.docs[r.state.currentJourney.value.id :=
                                                            Firestore.Doc(name, Firestore.Stringify(s), at)])
    ensures db.Ready? && fault.None? ==> (r.ok <==> !TruthyOpt(CurrentId(s)) || CurrentId(s).value in db.docs)
    ensures !r.ok ==> r.db == db && r.state.currentJourney == s.currentJourney
    ensures db.Uninitialised? ==> !r.ok && r.state == AddError(s, Firestore.NotInitialised, now)
    ensures db.Ready? && fault.Some? ==> !r.ok && r.state == AddError(s, Firestore.SaveFailed + fault.value, now)
    ensures db.Ready? && fault.None? && !r.ok ==>
              r.state == AddError(s, Firestore.SaveFailed + Firestore.NoDocumentToUpdate, now)
  {
    FinishSave(s, name, SaveJourney(db, s, name, CurrentId(s), at, newId, fault), now)
  }

  /** `saveAsNewJourney`: never passes an id, so always creates. */
  function SaveAsNewJourney(s: SharedState, db: Firestore.Db, name: string, at: int, newId: string,
                            fault: Option<string>, now: string): (r: Saved)
    requires Firestore.FreshFor(db, newId)
    ensures r.ok ==> r.state.currentJourney == Some(Journey(newId, name))
    ensures r.ok ==> r.state == s.(currentJourney := Some(Journey(newId, name)))
    ensures r.ok ==> db.Ready? && r.db.Ready? && newId !in db.docs && r.db.docs.Keys == db.docs.Keys + {newId}
    ensures r.ok ==> db.Ready? && r.db == Firestore.Ready(db.docs[newId := Firestore.Doc(name, Firestore.Stringify(s), at)])
    ensures db.Ready? && fault.None? ==> r.ok
    ensures !r.ok ==> r.db == db && r.state.currentJourney == s.currentJourney
    ensures db.Uninitialised? ==> !r.ok && r.state == AddError(s, Firestore.NotInitialised, now)
    ensures db.Ready? && fault.Some? ==> !r.ok && r.state == AddError(s, Firestore.SaveFailed + fault.value, now)
  {
    FinishSave(s, name, SaveJourney(db, s, name, None, at, newId, fault), now)
  }

  /** `loadFullJourney`: the loaded session replaces every field, except
      that the journey becomes the one loaded and the log starts empty. */
  function LoadFullJourney(s: SharedState, journey: Journey, loaded: SharedState): (r: SharedState)
    ensures UnchangedExcept(loaded, r, {Errors, CurrentJourney})
    ensures r.currentJourney == Some(journey) && r.errors == []
  {
    UpdateState(s, StatePatch(
      Some(loaded.brandDetails), Some(loaded.targetDemographic), Some(loaded.industry),
      Some(loaded.audienceAnalysisReport), Some(loaded.strategy), Some(loaded.trends),
      Some(loaded.hooks), Some(loaded.captions), Some(loaded.calendar),
      Some([]), Some(Some(journey))))
  }

  /** Loading ignores the session it replaces. */
  lemma LoadIgnoresPrevious(s: SharedState, t: SharedState, journey: Journey, loaded: SharedState)
    ensures LoadFullJourney(s, journey, loaded) == LoadFullJourney(t, journey, loaded)
  {
    var a := LoadFullJourney(s, journey, loaded);
    var b := LoadFullJourney(t, journey, loaded);
    assert UnchangedExcept(a, b, {}) by {
      forall f ensures SameAt(a, b, f) {
        assert SameAt(loaded, a, f) || f in {Errors, CurrentJourney};
      }
    }
    UnchangedNothingIsEqual(a, b);
  }
}

=== FILE: result_panel.dfy ===
/** The result panel every generation form keeps: a nullable result and
    the pending flag of the transition that fetches it. Submitting clears
    the result at once; when the reply arrives, a truthy error leaves it
    null and anything else stores the reply's data. */
module ResultPanel {
  import opened Js
  import opened Actions
  import opened Forms

  datatype Panel<+T> = Panel(result: Option<T>, isPending: bool)

  /** `setResult(null)` and the start of the transition. */
  function Start<T>(p: Panel<T>): (r: Panel<T>)
    ensures r.result.None? && r.isPending
  {
    Panel(None, true)
  }

  /** The end of the transition: on a truthy error the result is left as
      it is; otherwise it becomes the reply's data. */
  function Settle<T>(p: Panel<T>, reply: Reply<T>): (r: Panel<T>)
    ensures !r.isPending
    ensures Failed(reply) ==> r.result == p.result
    ensures !Failed(reply) ==> r.result == reply.data
  {
    if TruthyOpt(reply.error) then p.(isPending := false) else Panel(reply.data, false)
  }

  /** A whole submission of an already validated form. */
  function Submit<T>(p: Panel<T>, reply: Reply<T>): (r: Panel<T>)
    ensures !r.isPending
    ensures r.result.Some? <==> Succeeded(reply)
    ensures Succeeded(reply) ==> r.result == reply.data
  {
    Settle(Start(p), reply)
  }

  /** The form's submit handler, the same in every generation form:
      invalid values never reach the server and leave the panel alone;
      valid ones send `request` to `backend`, and afterwards a result is
      shown exactly when the reply succeeded, namely the reply's data. */
  function HandleSubmit<I, T>(p: Panel<T>, issues: seq<Issue>, request: I, backend: I -> Reply<T>): (r: Panel<T>)
    ensures issues != [] ==> r == p
    ensures issues == [] ==> !r.isPending && (r.result.Some? <==> Succeeded(backend(request)))
    ensures issues == [] && Succeeded(backend(request)) ==> r.result == backend(request).data
  {
    if issues != [] then p else Submit(p, backend(request))
  }

  /** A failed submission hides an earlier result instead of keeping it. */
  lemma FailureDiscardsEarlierResult<T>(earlier: T, reply: Reply<T>)
    requires Failed(reply)
    ensures Submit(Panel(Some(earlier), false), reply).result.None?
  {
  }
}

=== FILE: save_journey_dialog.dfy ===
/** The save dialog: a client-name field prefilled from the current
    journey when the dialog opens, an "Update Current" and a "Save as New"
    button when there is a current journey and a single "Save" button when
    there is not. A blank name saves nothing; the dialog closes only after a
    successful save. */
module SaveJourneyDialog {
  import opened Js
  import opened State
  import Provider
  import Firestore

  datatype Dialog = Dialog(isOpen: bool, clientName: string, isSaving: bool)

  datatype Button = UpdateCurrent | SaveAsNew | Save

  /** The effect run when the dialog opens or the current journey changes. */
  function Prefill(d: Dialog, current: Option<Journey>): (r: Dialog)
    ensures !d.isOpen ==> r == d
    ensures d.isOpen && current.Some? ==> r.clientName == current.value.name
    ensures d.isOpen && current.None? ==> r.clientName == ""
    ensures r.isOpen == d.isOpen && r.isSaving == d.isSaving
  {
    if !d.isOpen then d
    else
      var name := match current case Some(j) => j.name case None => "";
      d.(clientName := if Truthy(name) then name else "")
  }

  /** The buttons in the dialog's footer. */
  function Buttons(current: Option<Journey>): (r: seq<Button>)
    ensures SaveAsNew in r <==> current.Some?
    ensures UpdateCurrent in r <==> current.Some?
    ensures Save in r <==> current.None?
  {
    if current.Some? then [UpdateCurrent, SaveAsNew] else [Save]
  }

  /** What a click leaves behind: the dialog, and the session, store and
      outcome of the save (the session and store untouched when no save
      was attempted). */
  datatype Step = Step(dialog: Dialog, saved: Provider.Saved)

  /** After an attempted save: closed on success, never left saving. */
  function AfterAttempt(d: Dialog, saved: Provider.Saved): (r: Step)
    ensures r.saved == saved && !r.dialog.isSaving && r.dialog.clientName == d.clientName
    ensures r.dialog.isOpen == (d.isOpen && !saved.ok)
  {
    Step(d.(isOpen := d.isOpen && !saved.ok, isSaving := false), saved)
  }

  /** "Update Current" and "Save": save under the untrimmed name, updating
      the current journey if there is one. */
  function HandleSave(d: Dialog, s: SharedState, db: Firestore.Db, at: int, newId: string,
                      fault: Option<string>, now: string): (r: Step)
    requires Firestore.FreshFor(db, newId)
    ensures AllWhitespace(d.clientName) ==> r == Step(d, Provider.Saved(s, db, false))
    ensures !AllWhitespace(d.clientName) ==>
              r.saved == Provider.SaveCurrentJourney(s, db, d.clientName, at, newId, fault, now)
    ensures !r.dialog.isSaving || r.dialog == d
    ensures r.dialog.isOpen == (d.isOpen && !r.saved.ok)
  {
    TrimEmptyIffBlank(d.clientName);
    if !Truthy(Trim(d.clientName)) then Step(d, Provider.Saved(s, db, false))
    else AfterAttempt(d, Provider.SaveCurrentJourney(s, db, d.clientName, at, newId, fault, now))
  }

  /** "Save as New": the same guard, then always a new document. */
  function HandleSaveAsNew(d: Dialog, s: SharedState, db: Firestore.Db, at: int, newId: string,
                           fault: Option<string>, now: string): (r: Step)
    requires Firestore.FreshFor(db, newId)
    ensures AllWhitespace(d.clientName) ==> r == Step(d, Provider.Saved(s, db, false))
    ensures !AllWhitespace(d.clientName) ==>
              r.saved == Provider.SaveAsNewJourney(s, db, d.clientName, at, newId, fault, now)
    ensures !r.dialog.isSaving || r.dialog == d
    ensures r.dialog.isOpen == (d.isOpen && !r.saved.ok)
  {
    TrimEmptyIffBlank(d.clientName);
    if !Truthy(Trim(d.clientName)) then Step(d, Provider.Saved(s, db, false))
    else AfterAttempt(d, Provider.SaveAsNewJourney(s, db, d.clientName, at, newId, fault, now))
  }

  /** The name is stored as typed, surrounding spaces included. */
  lemma NameKeptUntrimmed(d: Dialog, s: SharedState, db: Firestore.Db, at: int, newId: string, now: string)
    requires Firestore.FreshFor(db, newId) && db.Ready? && s.currentJourney.None?
    requires !AllWhitespace(d.clientName)
    ensures var r := HandleSave(d, s, db, at, newId, None, now);
            && r.saved.ok
            && r.saved.state.currentJourney == Some(Journey(newId, d.clientName))
            && r.saved.db.docs[newId].name == d.clientName
  {
  }
}

=== FILE: state.dfy ===
/** The session record shared by every tool: brand text fields, six
    nullable artifact slots, the error log and the journey the session is
    associated with. */
module State {
  import opened Js
  import opened Artifacts
  import CaptionsSchema

  /** One error-log entry; the timestamp is an ISO-8601 string. */
  datatype AppError = AppError(message: string, timestamp: string)

  /** A reference to a persisted journey. */
  datatype Journey = Journey(id: string, name: string)

  datatype SharedState = SharedState(
    brandDetails: string,
    targetDemographic: string,
    industry: string,
    audienceAnalysisReport: Option<AudienceInsightsOutput>,
    strategy: Option<StrategyOutput>,
    trends: Option<TrendsOutput>,
    hooks: Option<HooksOutput>,
    captions: Option<CaptionsSchema.Output>,
    calendar: Option<CalendarOutput>,
    errors: seq<AppError>,
    currentJourney: Option<Journey>)

  /** The names of the record's fields, so that "only these fields change"
      can be said once. */
  datatype Field =
    | BrandDetails | TargetDemographic | Industry
    | AudienceAnalysisReport | StrategySlot | TrendsSlot | HooksSlot | CaptionsSlot | CalendarSlot
    | Errors | CurrentJourney

  /** The two states agree on field `f`. */
  predicate SameAt(s: SharedState, t: SharedState, f: Field) {
    match f
    case BrandDetails => s.brandDetails == t.brandDetails
    case TargetDemographic => s.targetDemographic == t.targetDemographic
    case Industry => s.industry == t.industry
    case AudienceAnalysisReport => s.audienceAnalysisReport == t.audienceAnalysisReport
    case StrategySlot => s.strategy == t.strategy
    case TrendsSlot => s.trends == t.trends
    case HooksSlot => s.hooks == t.hooks
    case CaptionsSlot => s.captions == t.captions
    case CalendarSlot => s.calendar == t.calendar
    case Errors => s.errors == t.errors
    case CurrentJourney => s.currentJourney == t.currentJourney
  }

  /** `t` differs from `s` at most in the fields of `changed`. */
  predicate UnchangedExcept(s: SharedState, t: SharedState, changed: set<Field>) {
    forall f :: f !in changed ==> SameAt(s, t, f)
  }

  /** Agreeing on every field is equality. */
  lemma UnchangedNothingIsEqual(s: SharedState, t: SharedState)
    requires UnchangedExcept(s, t, {})
    ensures s == t
  {
    assert SameAt(s, t, BrandDetails) && SameAt(s, t, TargetDemographic) && SameAt(s, t, Industry);
    assert SameAt(s, t, AudienceAnalysisReport) && SameAt(s, t, StrategySlot) && SameAt(s, t, TrendsSlot);
    assert SameAt(s, t, HooksSlot) && SameAt(s, t, CaptionsSlot) && SameAt(s, t, CalendarSlot);
    assert SameAt(s, t, Errors) && SameAt(s, t, CurrentJourney);
  }

  /** The six artifact slots are all empty. */
  predicate NoArtifacts(s: SharedState) {
    && s.audienceAnalysisReport.None? && s.strategy.None? && s.trends.None?
    && s.hooks.None? && s.captions.None? && s.calendar.None?
  }
}

=== FILE: strategy_alchemist.dfy ===
/** The strategy form: a brand name of at least 2 characters, description
    and audience of at least 10, goals of at least 5. */
module StrategyAlchemist {
  import opened Js
  import opened Forms
  import opened ResultPanel
  import opened Artifacts
  import opened Actions

  const DefaultValues := StrategyInput("", "", "", "")

  function Validate(v: StrategyInput): (r: seq<Issue>)
    ensures r == [] <==> (&& |v.brandName| >= 2
                          && |v.brandDescription| >= 10
                          && |v.targetAudience| >= 10
                          && |v.goals| >= 5)
    ensures |r| <= 4
  {
    MinLength("brandName", v.brandName, 2, "Brand name is required.")
    + MinLength("brandDescription", v.brandDescription, 10, "Brand description must be at least 10 characters.")
    + MinLength("targetAudience", v.targetAudience, 10, "Target audience must be at least 10 characters.")
    + MinLength("goals", v.goals, 5, "Goals are required.")
  }

  /** Every field of the empty form is reported. */
  lemma DefaultRejected()
    ensures |Validate(DefaultValues)| == 4
  {
  }

  /** `onSubmit`: the form values themselves are the request; see
      `ResultPanel.HandleSubmit` for what the panel shows afterwards. */
  function Submit(p: Panel<StrategyOutput>, v: StrategyInput,
                  backend: StrategyInput -> Reply<StrategyOutput>): (r: Panel<StrategyOutput>)
  {
    HandleSubmit(p, Validate(v), v, backend)
  }
}

=== FILE: trend_tracker.dfy ===
/** The trend-tracker form: a niche of at least 3 characters and a list of
    platforms drawn from five names that must select at least one. Ticking
    a box appends its platform; unticking removes every occurrence of it. */
module TrendTracker {
  import opened Js
  import opened Forms
  import opened ResultPanel
  import opened Actions
  import opened Artifacts

  const Platforms: seq<string> := ["Instagram", "TikTok", "LinkedIn", "X", "Facebook"]

  datatype FormValues = FormValues(niche: string, platforms: seq<string>)

  const DefaultValues := FormValues("", ["Instagram", "TikTok"])

  const NoPlatform := "You have to select at least one platform."

  /** One issue per list entry that is not one of the five names. */
  function EnumIssues(xs: seq<string>): (r: seq<Issue>)
    ensures r == [] <==> forall i :: 0 <= i < |xs| ==> xs[i] in Platforms
  {
    if xs == [] then [] else OneOf("platforms", xs[0], Platforms) + EnumIssues(xs[1..])
  }

  /** The array check; the "at least one" refinement runs only when every
      entry passed, and asks for some truthy entry. */
  function PlatformIssues(xs: seq<string>): (r: seq<Issue>)
    ensures r == [] <==> (forall i :: 0 <= i < |xs| ==> xs[i] in Platforms) && |xs| > 0
  {
    var e := EnumIssues(xs);
    if e != [] then e
    else if exists i :: 0 <= i < |xs| && Truthy(xs[i]) then []
    else
      assert xs != [] ==> Truthy(xs[0]) by {
        if xs != [] { assert xs[0] in Platforms; }
      }
      [Issue("platforms", NoPlatform)]
  }

  function Validate(v: FormValues): (r: seq<Issue>)
    ensures r == [] <==> (&& |v.niche| >= 3
                          && |v.platforms| > 0
                          && forall i :: 0 <= i < |v.platforms| ==> v.platforms[i] in Platforms)
  {
    MinLength("niche", v.niche, 3, "Niche must be at least 3 characters.") + PlatformIssues(v.platforms)
  }

  /** The default niche is too short; the default platforms are fine. */
  lemma DefaultRejectedOnNicheOnly()
    ensures Validate(DefaultValues) == [Issue("niche", "Niche must be at least 3 characters.")]
  {
    assert EnumIssues(DefaultValues.platforms) == [];
    assert Truthy(DefaultValues.platforms[0]);
  }

  /** `xs.filter(v => v !== p)`. */
  function Without(xs: seq<string>, p: string): (r: seq<string>)
    ensures forall x :: x in r <==> x in xs && x != p
    ensures |r| <= |xs|
  {
    if xs == [] then []
    else if xs[0] == p then Without(xs[1..], p)
    else [xs[0]] + Without(xs[1..], p)
  }

  /** The checkbox handler. */
  function Toggle(xs: seq<string>, p: string, checked: bool): (r: seq<string>)
    ensures checked ==> r == xs + [p]
    ensures !checked ==> p !in r && forall x :: x != p ==> (x in r <==> x in xs)
  {
    if checked then xs + [p] else Without(xs, p)
  }

  /** Removal keeps the order of what stays: it works piecewise. */
  lemma {:induction false} WithoutDistributes(xs: seq<string>, ys: seq<string>, p: string)
    ensures Without(xs + ys, p) == Without(xs, p) + Without(ys, p)
    decreases |xs|
  {
    if xs == [] {
      assert xs + ys == ys;
    } else {
      assert (xs + ys)[1..] == xs[1..] + ys;
      WithoutDistributes(xs[1..], ys, p);
    }
  }

  /** Removing an absent platform changes nothing. */
  lemma {:induction false} WithoutAbsent(xs: seq<string>, p: string)
    requires p !in xs
    ensures Without(xs, p) == xs
    decreases |xs|
  {
    if xs != [] {
      WithoutAbsent(xs[1..], p);
      assert xs == [xs[0]] + xs[1..];
    }
  }

  /** Ticking and then unticking an unticked platform restores the list. */
  lemma CheckThenUncheck(xs: seq<string>, p: string)
    requires p !in xs
    ensures Toggle(Toggle(xs, p, true), p, false) == xs
  {
    WithoutDistributes(xs, [p], p);
    WithoutAbsent(xs, p);
    assert Without([p], p) == [];
  }

  /** `onSubmit`: the form values themselves are the request; see
      `ResultPanel.HandleSubmit` for what the panel shows afterwards. */
  function Submit(p: Panel<TrendsOutput>, v: FormValues, backend: FormValues -> Reply<TrendsOutput>): (r: Panel<TrendsOutput>)
  {
    HandleSubmit(p, Validate(v), v, backend)
  }
}

=== FILE: viral_hook_generator.dfy ===
/** The viral-hook form: a niche of at least 3 characters and an audience
    psychology of at least 10. */
module ViralHookGenerator {
  import opened Js
  import opened Forms
  import opened ResultPanel
  import opened Artifacts
  import opened Actions

  const DefaultValues := HooksInput("", "")

  function Validate(v: HooksInput): (r: seq<Issue>)
    ensures r == [] <==> |v.niche| >= 3 && |v.audiencePsychology| >= 10
    ensures |r| <= 2
  {
    MinLength("niche", v.niche, 3, "Niche must be at least 3 characters.")
    + MinLength("audiencePsychology", v.audiencePsychology, 10, "Audience psychology must be at least 10 characters.")
  }

  lemma DefaultRejected()
    ensures |Validate(DefaultValues)| == 2
  {
  }

  /** `onSubmit`: the form values themselves are the request; see
      `ResultPanel.HandleSubmit` for what the panel shows afterwards. */
  function Submit(p: Panel<HooksOutput>, v: HooksInput,
                  backend: HooksInput -> Reply<HooksOutput>): (r: Panel<HooksOutput>)
  {
    HandleSubmit(p, Validate(v), v, backend)
  }
}
